=== FILE: README.md ===
# WebKit core pieces, modelled in Dafny

This project models six small pieces of WebKit and proves what they promise.

- **The x86 probe mechanism of JavaScriptCore's macro assembler.** `MacroAssembler::probe` emits a short instruction sequence at a probe site. That sequence calls `ctiMasmProbeTrampoline`, which saves every register into a probe context on the stack, calls the probe function with that context, moves the context out of the way when the stack pointer the probe asks for would overlap it, calls an optional stack initializer, and then resumes with the registers the context holds. The model has:
  - the context layout for both x86 and x86_64 (`ProbeLayout`);
  - a small abstract machine (`ProbeMachine`);
  - both trampolines, phase by phase, as imperative methods over that machine (`ProbeTrampoline`);
  - the emitted sequence and its meaning on the machine (`ProbeEmission`).
- **JSC's pointer tags** (`PtrTag`) in the configuration without pointer profiling. Every tag operation is the identity.
- **PAL's `Logger`** (`Logger`):
  - the per-owner enable switch;
  - the channel/level filter;
  - the level wrappers;
  - the rendering of log arguments;
  - the process-wide observer list that every emitted message goes to.
- **WebKit's `ServiceWorkerClientFetch`** (`ServiceWorkerClientFetch`). It relays a service worker's response to the resource loader. It tracks a redirect through a four-state status and answers its creator through a one-shot callback. Calls into collaborators are recorded as an event log.
- **WebCore's `ServiceWorkerJobData`** (`ServiceWorkerJobData`) and its IPC `encode`/`decode`. The IPC stream is modelled as one token per encoded value.
- **WebCore's `FileReaderSync`** (`FileReaderSync`):
  - the four synchronous reads;
  - the mapping from file error codes to DOM exception codes.

  The file loader is a function parameter.

The whole probe path is proved end to end. For any machine state, `ProbeRoundTrip` runs the emitted sequence, then the trampoline, with a probe function that changes nothing. It resumes after the probe with every register, the stack pointer, the flags and the XMM lanes as they were. `Trampoline` states the general case: the registers it resumes with are exactly the final context's words, and the context and restore area lie below the requested stack pointer.

## Model

| member | source | states |
|---|---|---|
| ProbeLayout.PtrSize | Source/JavaScriptCore/assembler/MacroAssemblerX86Common.cpp:43-47 | PTR_SIZE is 4 on x86 and 8 on x86_64 |
| ProbeLayout.XmmWordsIsLanes | Source/JavaScriptCore/assembler/MacroAssemblerX86Common.cpp:82-103 | the saved XMM block is XmmCount slots of XMM_SIZE (8) bytes, i.e. XmmCount × lanes pointer words |
| ProbeLayout.FieldAt | Source/JavaScriptCore/assembler/MacroAssemblerX86Common.cpp:49-103 | every word index of the context names a valid field |
| ProbeLayout.ConcreteLayout | Source/JavaScriptCore/assembler/MacroAssemblerX86Common.cpp:49-108 | documentation of the defines, not a property of the trampoline: PROBE_SIZE is 120/304, OUT_SIZE is 20/40 and the first XMM offset is 56/176 on x86/x86_64 |
| ProbeLayout.OffsetIsSlot | Source/JavaScriptCore/assembler/MacroAssemblerX86Common.cpp:49-90 | each field offset is its word index times PTR_SIZE, and the field lies inside PROBE_SIZE |
| ProbeLayout.OffsetAligned | Source/JavaScriptCore/assembler/MacroAssemblerX86Common.cpp:49-90 | documentation of the defines, not a property of the trampoline: every field offset is pointer-aligned |
| ProbeLayout.ProbeSizeIsSlots | Source/JavaScriptCore/assembler/MacroAssemblerX86Common.cpp:92-103 | PROBE_SIZE is a whole number of words (so the word-by-word copy loop copies it exactly) |
| ProbeLayout.ProbeSizeModulo32 | Source/JavaScriptCore/assembler/MacroAssemblerX86Common.cpp:92-108 | documentation of the defines, not a property of the trampoline: PROBE_SIZE itself is not 32-byte aligned (120 and 304 leave 24 and 16 modulo 32), so only the rounding of the stack pointer makes the context aligned |
| ProbeLayout.Xmm0Aligned | Source/JavaScriptCore/assembler/MacroAssemblerX86Common.cpp:140 | documentation of the defines, not a property of the trampoline: the XMM0 slot is 8-byte aligned and starts the XMM block |
| ProbeLayout.SlotFieldAt | Source/JavaScriptCore/assembler/MacroAssemblerX86Common.cpp:49-103 | the fields tile the context without gaps: word index → field → word index is the identity |
| ProbeLayout.FieldAtSlot | Source/JavaScriptCore/assembler/MacroAssemblerX86Common.cpp:49-103 | field → word index → field is the identity |
| ProbeLayout.OffsetsDistinct | Source/JavaScriptCore/assembler/MacroAssemblerX86Common.cpp:49-103 | distinct fields never share an offset |
| ProbeLayout.FieldOrder | Source/JavaScriptCore/assembler/MacroAssemblerX86Common.cpp:49-103 | header words, then GPRs, then EIP and EFLAGS, then the XMM slots, the last ending exactly at PROBE_SIZE |
| ProbeMachine.AlignDown32Bounds | Source/JavaScriptCore/assembler/MacroAssemblerX86Common.cpp:188 | `and $~0x1f` yields a multiple of 32 no higher and less than 32 lower |
| ProbeMachine.ContextAt | Source/JavaScriptCore/assembler/MacroAssemblerX86Common.cpp:49-103 | the context block read word by word has exactly SlotCount words |
| ProbeMachine.StoreOutsideContext | Source/JavaScriptCore/assembler/MacroAssemblerX86Common.cpp:307-316 | a store outside the block leaves every context word unchanged |
| ProbeMachine.StoreField | Source/JavaScriptCore/assembler/MacroAssemblerX86Common.cpp:193-197 | a store into a field changes that one context word and no other address |
| ProbeMachine.StoreWords | Source/JavaScriptCore/assembler/MacroAssemblerX86Common.cpp:212-219 | a run of stores into consecutive words puts each value in its word, changes nothing outside the run, and updates exactly that slice of the context |
| ProbeMachine.LoadWords | Source/JavaScriptCore/assembler/MacroAssemblerX86Common.cpp:281-288 | a run of loads returns exactly that slice of the context |
| ProbeTrampoline.EntryContextBounds | Source/JavaScriptCore/assembler/MacroAssemblerX86Common.cpp:184-188 | the context built at entry is 32-byte aligned, leaves PROBE_SIZE + OUT_SIZE below the pushed flags and wastes less than 32 bytes |
| ProbeTrampoline.SafeContextBelowRequestedSp | Source/JavaScriptCore/assembler/MacroAssemblerX86Common.cpp:234-245 | after the safety check, context plus restore area lie below the requested stack pointer; a relocated context is aligned and strictly lower; an unrelocated one is unchanged |
| ProbeTrampoline.EntryContext | Source/JavaScriptCore/assembler/MacroAssemblerX86Common.cpp:184-188 | the context is placed PROBE_SIZE + OUT_SIZE or more below the pushed flags |
| ProbeTrampoline.NeedsRelocation | Source/JavaScriptCore/assembler/MacroAssemblerX86Common.cpp:234-239 | the signed `jge` on unbounded integers: when no relocation is needed, context plus restore area already end at or below the requested sp |
| ProbeTrampoline.SafeContext | Source/JavaScriptCore/assembler/MacroAssemblerX86Common.cpp:234-245 | an unrelocated context stays where it is; a relocated one ends, with its restore area, at or below the requested sp |
| ProbeTrampoline.RestoreAreaDisjoint | Source/JavaScriptCore/assembler/MacroAssemblerX86Common.cpp:298-316 | the restore area written below the requested stack pointer never overlaps the safe context |
| ProbeTrampoline.Captured | Source/JavaScriptCore/assembler/MacroAssemblerX86Common.cpp:193-222 | the record the trampoline captures has one word per context slot |
| ProbeTrampoline.CapturedRecord | Source/JavaScriptCore/assembler/MacroAssemblerX86Common.cpp:199-222 | the captured record assembled from its parts has the context's length |
| ProbeTrampoline.CapturedRecordFields | Source/JavaScriptCore/assembler/MacroAssemblerX86Common.cpp:199-222 | the six stack words land in probeFunction, arg, EAX, ESP, EIP and EFLAGS; initializeStackFunction is null; every other register and XMM lane is its own value |
| ProbeTrampoline.ResumeCapturedRecord | Source/JavaScriptCore/assembler/MacroAssemblerX86Common.cpp:276-324 | resuming from an unchanged record gives back the registers, with eax/esp the saved ones and eip the return address |
| ProbeTrampoline.ResumedCpu | Source/JavaScriptCore/assembler/MacroAssemblerX86Common.cpp:276-324 | the resumed registers are field by field the context's GPR, XMM, EFLAGS and EIP words |
| ProbeTrampoline.RestoreAreaAt | Source/JavaScriptCore/assembler/MacroAssemblerX86Common.cpp:106-108 | the restore area is five words (OUT_SIZE) |
| ProbeTrampoline.FiveStores | Source/JavaScriptCore/assembler/MacroAssemblerX86Common.cpp:307-316 | the five restore-area stores leave their values in pop order and leave a context below alone |
| ProbeTrampoline.PopValues | Source/JavaScriptCore/assembler/MacroAssemblerX86Common.cpp:106-108 | the restore area holds eflags, eax, ecx, ebp, eip: five words |
| ProbeTrampoline.ClobberCall | Source/JavaScriptCore/assembler/MacroAssemblerX86Common.cpp:226-229 | a C call keeps the register file's shape (only caller-saved registers and flags change) |
| ProbeTrampoline.Enter | Source/JavaScriptCore/assembler/MacroAssemblerX86Common.cpp:172-191 | pushes the flags, keeps the old sp in eax, reserves the aligned context, saves ebp there and points ebp/esp at it; nothing else is written |
| ProbeTrampoline.SaveScratchRegisters | Source/JavaScriptCore/assembler/MacroAssemblerX86Common.cpp:193-197 | ecx, edx, ebx, esi and edi are stored into their fields; no other memory changes |
| ProbeTrampoline.MoveStackWord | Source/JavaScriptCore/assembler/MacroAssemblerX86Common.cpp:199-200 | one stack word moves through ecx into its field; nothing outside the context changes |
| ProbeTrampoline.SaveStackWords | Source/JavaScriptCore/assembler/MacroAssemblerX86Common.cpp:199-210 | the six stack words land in eflags, eip, probeFunction, arg, eax, esp; ecx holds the last |
| ProbeTrampoline.SaveWideRegisters | Source/JavaScriptCore/assembler/MacroAssemblerX86Common.cpp:212-222 | r8–r15 (x86_64, lines 375-382) and the XMM lanes are saved and initializeStackFunction is zeroed |
| ProbeTrampoline.Prologue | Source/JavaScriptCore/assembler/MacroAssemblerX86Common.cpp:172-197 | entry plus scratch saves: which context words hold which registers, and that only the flags push and the context are written |
| ProbeTrampoline.WithHighGprs | Source/JavaScriptCore/assembler/MacroAssemblerX86Common.cpp:54-75 | the GPR block after r8–r15 are stored has GprCount words |
| ProbeTrampoline.Record | Source/JavaScriptCore/assembler/MacroAssemblerX86Common.cpp:199-222 | the record phase writes the full context (stack words, saved GPRs, stale initializeStackArg, XMM lanes) and nothing outside it |
| ProbeTrampoline.RecordAssembled | Source/JavaScriptCore/assembler/MacroAssemblerX86Common.cpp:199-222 | the word updates of the record phase add up to the record, word by word |
| ProbeTrampoline.GprsAssembled | Source/JavaScriptCore/assembler/MacroAssemblerX86Common.cpp:184-210 | the saved GPR slots equal the entry registers with eax and esp replaced by the pushed copies |
| ProbeTrampoline.Capture | Source/JavaScriptCore/assembler/MacroAssemblerX86Common.cpp:172-222 | after capture the context at the aligned entry address is exactly Captured(m); ebp and esp point at it; only it and the flags word are written |
| ProbeTrampoline.CapturedFromStack | Source/JavaScriptCore/assembler/MacroAssemblerX86Common.cpp:199-210 | Captured is the record built from the six words read back through eax |
| ProbeTrampoline.RecordOfEntry | Source/JavaScriptCore/assembler/MacroAssemblerX86Common.cpp:184-222 | the context after prologue and record phase is the captured record |
| ProbeTrampoline.StaleArgKept | Source/JavaScriptCore/assembler/MacroAssemblerX86Common.cpp:184-197 | initializeStackArg is never written by the capture |
| ProbeTrampoline.CallProbe | Source/JavaScriptCore/assembler/MacroAssemblerX86Common.cpp:224-229 | the probe function named in the context is called with the context pointer; the context becomes the function's result; ebp survives |
| ProbeTrampoline.CopyContext | Source/JavaScriptCore/assembler/MacroAssemblerX86Common.cpp:247-255 | the ascending word copy to a lower address reproduces the whole context and writes nothing else; it ends with eax at PROBE_SIZE and edx holding the last word copied |
| ProbeTrampoline.EnsureSafeContext | Source/JavaScriptCore/assembler/MacroAssemblerX86Common.cpp:231-257 | ebp ends at SafeContext, holding the same context words; nothing outside the new context is written; eax, ecx and edx end as the comparison or the copy loop leaves them |
| ProbeTrampoline.CallInitializer | Source/JavaScriptCore/assembler/MacroAssemblerX86Common.cpp:259-269 | initializeStackFunction is called with the context exactly when it is non-null; the context becomes its result |
| ProbeTrampoline.ReloadRegisters | Source/JavaScriptCore/assembler/MacroAssemblerX86Common.cpp:272-288 | edx, ebx, esi, edi, r8–r15 and the XMM lanes are the context's words; memory is unchanged |
| ProbeTrampoline.MoveRestoreWord | Source/JavaScriptCore/assembler/MacroAssemblerX86Common.cpp:307-308 | one context word moves through eax into the restore area; the context is unchanged |
| ProbeTrampoline.CopyPopWords | Source/JavaScriptCore/assembler/MacroAssemblerX86Common.cpp:307-316 | the restore area receives eflags, eax, ecx, ebp, eip in pop order |
| ProbeTrampoline.FillRestoreArea | Source/JavaScriptCore/assembler/MacroAssemblerX86Common.cpp:290-317 | the restore area sits five words below the requested sp, holds PopValues, and esp points at it; the context is unchanged |
| ProbeTrampoline.PopRestoreArea | Source/JavaScriptCore/assembler/MacroAssemblerX86Common.cpp:319-324 | popf/pop/pop/pop/ret load eflags, eax, ecx, ebp, eip and leave esp five words higher |
| ProbeTrampoline.Restore | Source/JavaScriptCore/assembler/MacroAssemblerX86Common.cpp:272-324 | the resumed registers are exactly ResumedCpu of the context, esp is the requested stack pointer, and only the restore area is written |
| ProbeTrampoline.ResumedFrom | Source/JavaScriptCore/assembler/MacroAssemblerX86Common.cpp:276-324 | reloaded registers plus the popped ones make up ResumedCpu |
| ProbeTrampoline.Probed | Source/JavaScriptCore/assembler/MacroAssemblerX86Common.cpp:224-229 | the probe's result on the captured context keeps the context's size |
| ProbeTrampoline.Initialized | Source/JavaScriptCore/assembler/MacroAssemblerX86Common.cpp:259-269 | the initializer, when set, keeps the size and (as required of it) the requested stack pointer |
| ProbeTrampoline.InitializerCalls | Source/JavaScriptCore/assembler/MacroAssemblerX86Common.cpp:259-266 | at most one initializer call is made |
| ProbeTrampoline.CaptureAndProbe | Source/JavaScriptCore/assembler/MacroAssemblerX86Common.cpp:172-257 | after capture, probe call and safety check, the safe context holds Probed(m) and nothing at or above the entry sp changed |
| ProbeTrampoline.InitializeAndResume | Source/JavaScriptCore/assembler/MacroAssemblerX86Common.cpp:259-324 | the initializer runs if set, and the machine resumes with the registers of the initialized context at the requested sp |
| ProbeTrampoline.Trampoline | Source/JavaScriptCore/assembler/MacroAssemblerX86Common.cpp:167-325 | the whole x86 trampoline (x86_64 at 329-515): calls the probe then the optional initializer; resumes with exactly the final context's registers; context and restore area lie below the requested sp; above the entry sp only the restore area changes, apart from the callbacks, which the model confines to the context |
| ProbeEmission.MacroAssembler.EmitPush | Source/JavaScriptCore/assembler/MacroAssemblerX86Common.cpp:571 | appends one push to the code buffer |
| ProbeEmission.MacroAssembler.EmitMove | Source/JavaScriptCore/assembler/MacroAssemblerX86Common.cpp:573 | appends one immediate move |
| ProbeEmission.MacroAssembler.EmitCall | Source/JavaScriptCore/assembler/MacroAssemblerX86Common.cpp:578 | appends one register call |
| ProbeEmission.MacroAssembler.Probe | Source/JavaScriptCore/assembler/MacroAssemblerX86Common.cpp:569-579 | the code buffer grows by exactly the probe sequence |
| ProbeEmission.ProbeSequence | Source/JavaScriptCore/assembler/MacroAssemblerX86Common.cpp:569-579 | eight valid instructions ending in a call through eax |
| ProbeEmission.Step | Source/JavaScriptCore/assembler/MacroAssemblerX86Common.cpp:569-579 | one push/move/call keeps the register file's shape |
| ProbeEmission.Run | Source/JavaScriptCore/assembler/MacroAssemblerX86Common.cpp:569-579 | a straight-line run keeps the register file's shape |
| ProbeEmission.ProbeSequenceSteps | Source/JavaScriptCore/assembler/MacroAssemblerX86Common.cpp:569-579 | running the sequence is running its eight instructions in order |
| ProbeEmission.ProbeSequenceEffect | Source/JavaScriptCore/assembler/MacroAssemblerX86Common.cpp:565-579 | leaves the return address, function, argument, old eax and old sp on the stack; eax and eip hold the trampoline; every other register, the flags and XMMs are untouched |
| ProbeEmission.CapturedAtProbeSite | Source/JavaScriptCore/assembler/MacroAssemblerX86Common.cpp:558-567 | the captured record at a probe site holds every register as before the probe, eip the next instruction, and the probe's function and argument |
| ProbeEmission.ProbeRoundTrip | Source/JavaScriptCore/assembler/MacroAssemblerX86Common.cpp:530-579 | probe sequence plus trampoline with an identity probe: one probe call, no initializer call, and every register as before with eip the next instruction |
| PtrTag.TagValue | Source/JavaScriptCore/runtime/PtrTag.h:32-46 | each tag's value is its position in declaration order, starting from NoPtrTag = 0 |
| PtrTag.TagValuesConsecutive | Source/JavaScriptCore/runtime/PtrTag.h:32-46 | twelve tags, valued 0..11, distinct tags have distinct values |
| PtrTag.UniquePtrTagId | Source/JavaScriptCore/runtime/PtrTag.h:49 | the unique id is NoPtrTag's value, 0 |
| PtrTag.PtrTagFor | Source/JavaScriptCore/runtime/PtrTag.h:51-52 | whatever the arguments, the tag is the one valued 0 |
| PtrTag.TagCodePtr | Source/JavaScriptCore/runtime/PtrTag.h:54-58 | tagging leaves the pointer's bits unchanged |
| PtrTag.UntagCodePtr | Source/JavaScriptCore/runtime/PtrTag.h:60-64 | untagging leaves the pointer's bits unchanged |
| PtrTag.RetagCodePtr | Source/JavaScriptCore/runtime/PtrTag.h:66-70 | retagging leaves the pointer's bits unchanged |
| PtrTag.RemoveCodePtrTag | Source/JavaScriptCore/runtime/PtrTag.h:72-76 | removing the tag leaves the pointer's bits unchanged |
| PtrTag.TagRoundTrip | Source/JavaScriptCore/runtime/PtrTag.h:54-64 | untag∘tag and tag∘untag with the same tag give the pointer back |
| PtrTag.RetagIsUntagThenTag | Source/JavaScriptCore/runtime/PtrTag.h:54-70 | retag equals untag-then-tag, and retagging back restores the pointer |
| PtrTag.RemoveTagIdempotent | Source/JavaScriptCore/runtime/PtrTag.h:54-76 | tag removal is idempotent and undoes any tagging |
| Logger.Rank | Source/WebCore/PAL/pal/Logger.h:125-134 | the level order used by `level > channel.level`: Always is lowest, six levels |
| Logger.Logger.WillLog | Source/WebCore/PAL/pal/Logger.h:125-134 | only an enabled logger logs, and only at Always or at a level no more verbose than the channel's |
| Logger.MethodOnly | Source/WebCore/PAL/pal/Logger.h:144-149 | the two-argument MethodAndPointer has no class name |
| Logger.BoolToString | Source/WebCore/PAL/pal/Logger.h:40 | a bool renders as "true" or "false", and "true" exactly for true |
| Logger.MethodAndPointerToString | Source/WebCore/PAL/pal/Logger.h:224-240 | `Class::` prefix only when a class name is set, then the method name, `(0x`, the hex address and `) `, each at its position; the exact length |
| Logger.ClassNameIsPrefix | Source/WebCore/PAL/pal/Logger.h:230-238 | with a class name, the rendering is `Class::` followed by the method-only rendering |
| Logger.MakeMessage | Source/WebCore/PAL/pal/Logger.h:183 | no arguments give the empty message; one argument gives its own rendering |
| Logger.ArgumentToString | Source/WebCore/PAL/pal/Logger.h:38-47 | the overload chosen by type: a bool gives "true" exactly when true, a string is its own text, a method-and-pointer ends in ") " |
| Logger.MakeMessageAppend | Source/WebCore/PAL/pal/Logger.h:183 | the message of a concatenated argument list is the concatenation of the messages |
| Logger.RemoveFirst | Source/WebCore/PAL/pal/Logger.h:167-172 | removing an unregistered observer changes nothing; removing a registered one shortens the list by one |
| Logger.RemoveFirstAt | Source/WebCore/PAL/pal/Logger.h:167-172 | exactly the first occurrence is removed, the rest keeps its order |
| Logger.RemoveFirstMultiset | Source/WebCore/PAL/pal/Logger.h:167-172 | exactly one registration of the observer disappears |
| Logger.AddThenRemove | Source/WebCore/PAL/pal/Logger.h:163-172 | adding then removing a new observer restores the list |
| Logger.Deliveries | Source/WebCore/PAL/pal/Logger.h:191-192 | one didLogMessage per observer, in order, all with the same channel and message |
| Logger.ObserverRegistry.constructor | Source/WebCore/PAL/pal/Logger.h:195-199 | the static observer vector starts empty |
| Logger.ObserverRegistry.AddObserver | Source/WebCore/PAL/pal/Logger.h:163-166 | appends the observer |
| Logger.ObserverRegistry.RemoveObserver | Source/WebCore/PAL/pal/Logger.h:167-172 | removes the first registration of the observer |
| Logger.ObserverRegistry.Log | Source/WebCore/PAL/pal/Logger.h:180-193 | every registered observer receives the message once, in registration order; the list is unchanged |
| Logger.Logger.constructor | Source/WebCore/PAL/pal/Logger.h:175-178 | a new logger has its owner and is enabled (m_enabled{true} at line 202) |
| Logger.Logger.Enabled | Source/WebCore/PAL/pal/Logger.h:136 | when disabled no message passes the filter; when enabled an Always message on an Always channel passes |
| Logger.Logger.SetEnabled | Source/WebCore/PAL/pal/Logger.h:137-142 | only the owner's request changes the switch |
| Logger.Logger.LogAt | Source/WebCore/PAL/pal/Logger.h:80-87 | observers receive the rendered message exactly when willLog passes |
| Logger.Logger.LogAlways | Source/WebCore/PAL/pal/Logger.h:65-78 | like the others at level Always, but nothing at all when release logging is disabled |
| Logger.Logger.LogError | Source/WebCore/PAL/pal/Logger.h:80-87 | delivers exactly when willLog(channel, Error) |
| Logger.Logger.LogWarning | Source/WebCore/PAL/pal/Logger.h:89-96 | delivers exactly when willLog(channel, Warning) |
| Logger.Logger.LogNotice | Source/WebCore/PAL/pal/Logger.h:98-105 | delivers exactly when willLog(channel, Notice) |
| Logger.Logger.LogInfo | Source/WebCore/PAL/pal/Logger.h:107-114 | delivers exactly when willLog(channel, Info) |
| Logger.Logger.LogDebug | Source/WebCore/PAL/pal/Logger.h:116-123 | delivers exactly when willLog(channel, Debug) |
| Logger.WillLogCharacterized | Source/WebCore/PAL/pal/Logger.h:125-134 | a message passes iff the logger is enabled, its level is Always or within the channel's, and the channel is Always-level or not Off |
| Logger.WillLogMonotonic | Source/WebCore/PAL/pal/Logger.h:125-134 | a channel passing a level passes every more severe level; Always passes the level test everywhere |
| Logger.DisabledLoggerDeliversNothing | Source/WebCore/PAL/pal/Logger.h:125-142 | for any logger, channel, level and arguments: after the owner's setEnabled(false), and any non-owner's request, the logger stays off and no observer receives anything |
| Logger.DisabledLoggerIsSilent | Source/WebCore/PAL/pal/Logger.h:137-142 | a worked session (owner 7, observers 1 and 2, one channel): the first error reaches both observers; after the owner disables the logger nothing more is delivered, and a non-owner's request does not re-enable it |
| ServiceWorkerClientFetch.CallbackCount | Source/WebKit/WebProcess/Storage/ServiceWorkerClientFetch.cpp:92-106 | the count of callback invocations is zero exactly when no event is a callback invocation |
| ServiceWorkerClientFetch.CallbackCountAppend | Source/WebKit/WebProcess/Storage/ServiceWorkerClientFetch.cpp:92-106 | invocations add up over concatenated event logs |
| ServiceWorkerClientFetch.TakeCallback | Source/WebKit/WebProcess/Storage/ServiceWorkerClientFetch.cpp:105-106 | moving the callback out invokes it once if held and not at all otherwise |
| ServiceWorkerClientFetch.FollowsRedirect | Source/WebKit/WebProcess/Storage/ServiceWorkerClientFetch.cpp:72 | only a redirection is followed, and never one with opaque-redirect tainting |
| ServiceWorkerClientFetch.ClientFetch.InvokeCallback | Source/WebKit/WebProcess/Storage/ServiceWorkerClientFetch.cpp:92-93 | the callback is moved out: invoked once if held, never again afterwards, and the status is unchanged |
| ServiceWorkerClientFetch.ClientFetch.Create | Source/WebKit/WebProcess/Storage/ServiceWorkerClientFetch.cpp:42-47 | a new fetch has status None, holds the callback it was given, and has started the fetch for its loader |
| ServiceWorkerClientFetch.ClientFetch.Start | Source/WebKit/WebProcess/Storage/ServiceWorkerClientFetch.cpp:63-66 | asks the connection to start the fetch with the loader's identifier |
| ServiceWorkerClientFetch.ClientFetch.DidReceiveResponse | Source/WebKit/WebProcess/Storage/ServiceWorkerClientFetch.cpp:68-107 | a followed redirect sets Receiving and keeps the callback; an error fails the loader; otherwise the loader gets the service-worker response; both non-redirect cases invoke the callback with Succeeded |
| ServiceWorkerClientFetch.ClientFetch.RedirectCompleted | Source/WebKit/WebProcess/Storage/ServiceWorkerClientFetch.cpp:75-85 | no effect on a null request or without a callback; restarts the fetch when the redirect response already finished; otherwise sets Following |
| ServiceWorkerClientFetch.ClientFetch.DidReceiveData | Source/WebKit/WebProcess/Storage/ServiceWorkerClientFetch.cpp:109-112 | passes the data straight to the loader |
| ServiceWorkerClientFetch.ClientFetch.DidFinish | Source/WebKit/WebProcess/Storage/ServiceWorkerClientFetch.cpp:119-141 | Receiving→Received silently; Following→None with a restart; None/Received→None with the loader finished and the provider told |
| ServiceWorkerClientFetch.ClientFetch.DidFail | Source/WebKit/WebProcess/Storage/ServiceWorkerClientFetch.cpp:143-152 | the loader fails, a held callback gets Succeeded, the provider is told |
| ServiceWorkerClientFetch.ClientFetch.DidNotHandle | Source/WebKit/WebProcess/Storage/ServiceWorkerClientFetch.cpp:154-160 | a held callback gets Unhandled, the provider is told |
| ServiceWorkerClientFetch.ClientFetch.Cancel | Source/WebKit/WebProcess/Storage/ServiceWorkerClientFetch.cpp:162-166 | a held callback gets Cancelled; nothing else happens |
| ServiceWorkerClientFetch.ServiceWorkerResponse | Source/WebKit/WebProcess/Storage/ServiceWorkerClientFetch.cpp:97-103 | the source becomes ServiceWorker; a main resource's default MIME type becomes text/html; everything else is kept |
| ServiceWorkerClientFetch.CallbackAtMostOnce | Source/WebKit/WebProcess/Storage/ServiceWorkerClientFetch.cpp:68-166 | over any sequence of calls the callback is invoked at most once, and never when none was given |
| ServiceWorkerClientFetch.RedirectEitherOrder | Source/WebKit/WebProcess/Storage/ServiceWorkerClientFetch.cpp:72-134 | whichever of the loader's completion and the redirect body's end comes first, the fetch restarts once; ending first leaves status Received |
| ServiceWorkerJobData.JobTypeOf | Source/WebCore/workers/service/ServiceWorkerJobData.h:94 | every decoded number names exactly one job type, the one encodeEnum writes as that number: 0 is Register, any other number an unnamed type |
| ServiceWorkerJobData.Encoding | Source/WebCore/workers/service/ServiceWorkerJobData.h:66-77 | the seven fields in order, then the registration options for a Register job only |
| ServiceWorkerJobData.GoodPrefix | Source/WebCore/workers/service/ServiceWorkerJobData.h:82-101 | where decoding stops: all tokens before it decode, the one at it does not |
| ServiceWorkerJobData.SetField | Source/WebCore/workers/service/ServiceWorkerJobData.h:82-95 | decoding one field overwrites that field only |
| ServiceWorkerJobData.FieldTokensDetermine | Source/WebCore/workers/service/ServiceWorkerJobData.h:69-74 | the encoding determines the job: same field values and options means same job |
| ServiceWorkerJobData.DecodeFromResult | Source/WebCore/workers/service/ServiceWorkerJobData.h:79-106 | decoding succeeds iff the seven fields decode and, for Register, the options too; fields before the first bad one take the decoded values, later ones keep the old ones; a Register job's options as decoded or fresh, any other job's untouched |
| ServiceWorkerJobData.DecodeSucceedsIff | Source/WebCore/workers/service/ServiceWorkerJobData.h:79-106 | decode returns true exactly when the first seven values are the seven fields and, when the type is Register (0), the eighth is the options |
| ServiceWorkerJobData.DecodeStopsAtFirstBadField | Source/WebCore/workers/service/ServiceWorkerJobData.h:82-103 | on failure the fields before the bad one are decoded and the rest keep the target's values |
| ServiceWorkerJobData.EncodeDecode | Source/WebCore/workers/service/ServiceWorkerJobData.h:66-106 | decoding an encoded job succeeds and yields that job, whatever the target held and whatever follows; for an unnamed type no options are sent and the target keeps its own |
| ServiceWorkerJobData.Encoder.Append | Source/WebCore/workers/service/ServiceWorkerJobData.h:69 | appends one value to the stream |
| ServiceWorkerJobData.Decoder.Next | Source/WebCore/workers/service/ServiceWorkerJobData.h:82 | reads the next value, or fails without reading at the end of the stream |
| ServiceWorkerJobData.JobData.constructor | Source/WebCore/workers/service/ServiceWorkerJobData.h:42-63 | both identifiers start at 0; no registration options |
| ServiceWorkerJobData.JobData.Encode | Source/WebCore/workers/service/ServiceWorkerJobData.h:66-77 | the encoder's stream grows by exactly the job's encoding |
| ServiceWorkerJobData.DecodeField | Source/WebCore/workers/service/ServiceWorkerJobData.h:82-93 | one field read: succeeds iff the next value decodes as that field, then stores it |
| ServiceWorkerJobData.DecodeOptions | Source/WebCore/workers/service/ServiceWorkerJobData.h:97-105 | a Register job gets fresh options and then reads them; any other type reads nothing and succeeds |
| ServiceWorkerJobData.DecodeIdentifiersAndUrls | Source/WebCore/workers/service/ServiceWorkerJobData.h:82-89 | the first four reads follow the decoding specification |
| ServiceWorkerJobData.Decode | Source/WebCore/workers/service/ServiceWorkerJobData.h:79-106 | the result and the target's new fields are exactly the decoding specification's on the remaining stream |
| ServiceWorkerJobData.RoundTrip | Source/WebCore/workers/service/ServiceWorkerJobData.h:66-106 | encoding into a fresh encoder and decoding into any job succeeds and reproduces every field, the options only for Register |
| FileReaderSync.ErrorCodeToExceptionCode | Source/WebCore/fileapi/FileReaderSync.cpp:76-107 | 0 exactly for OK; UnknownError exactly for unlisted values; NoModificationAllowed exactly for NO_MODIFICATION_ALLOWED and PATH_EXISTS |
| FileReaderSync.MappingCollisions | Source/WebCore/fileapi/FileReaderSync.cpp:78-106 | the only distinct codes that share an exception are two unlisted values, or NO_MODIFICATION_ALLOWED and PATH_EXISTS |
| FileReaderSync.ExceptionToFileError | Source/WebCore/fileapi/FileReaderSync.cpp:78-105 | every exception except UnknownError is produced by some file error code |
| FileReaderSync.MappingRoundTrip | Source/WebCore/fileapi/FileReaderSync.cpp:78-105 | the mapping is invertible on listed codes other than PATH_EXISTS |
| FileReaderSync.StartLoading | Source/WebCore/fileapi/FileReaderSync.cpp:109-115 | throws exactly when the loader's code is not OK, with the mapped non-zero code |
| FileReaderSync.StartLoadingString | Source/WebCore/fileapi/FileReaderSync.cpp:117-123 | rethrows startLoading's exception, or returns the loader's string result |
| FileReaderSync.ReadAsArrayBuffer | Source/WebCore/fileapi/FileReaderSync.cpp:47-54 | throws the mapped code exactly on a loader error, else returns the array buffer result |
| FileReaderSync.ReadAsBinaryString | Source/WebCore/fileapi/FileReaderSync.cpp:56-60 | throws the mapped code exactly on a loader error, else returns the binary string |
| FileReaderSync.ReadAsText | Source/WebCore/fileapi/FileReaderSync.cpp:62-67 | the loader runs with the requested encoding; throws on error, else the text |
| FileReaderSync.ReadAsDataURL | Source/WebCore/fileapi/FileReaderSync.cpp:69-74 | the loader runs with the blob's type as data type; throws on error, else the data URL |

## Left out

- Machine words are unbounded integers. The 32/64-bit wrap-around of addresses is not modelled. The signed `jge` of the safety check (MacroAssemblerX86Common.cpp:239 and :415) is compared on unbounded integers.
- Memory is word-granular: one word per byte address, and every store or load is a whole pointer-sized word at a word address. Byte-level overlap between words at unaligned addresses is not modelled. The trampoline only uses aligned addresses.
- Only the low 8 bytes of each XMM register are saved, as in the source (XMM_SIZE 8). The upper halves are not part of the machine.
- The return address a call pushes is written into the stack just below the stack pointer. That word is not tracked for the probe and initializer calls inside the trampoline. What those functions do is modelled as a `Callback` on the context words. Their own stack use below the context is not modelled.
- `ProbeTrampoline.Trampoline` does not prove anything about an initializer that moves the requested stack pointer. The source forbids that in a comment (MacroAssemblerX86Common.cpp:301-306), and the model requires it.
- `ProbeEmission.Step`: `MacroAssembler::move(TrustedImmPtr, RegisterID)` is defined in the MacroAssembler headers, which are not part of this model. The emitted move is assumed to be a flag-neutral `mov`. If it were emitted as `xor reg, reg` for a null immediate, the flags would change before the trampoline's `pushf`, and `ProbeRoundTrip`'s "flags as they were" would not hold for a null `arg`.
- `ProbeTrampoline.ClobberCall`: a call inside the trampoline leaves one value, `clobber`, in every caller-saved register, XMM lane and the flags. A callee that leaves different values in different registers is not covered by the theorems as stated. Every such register is reloaded from the context before it is read.
- The Windows stub of `ctiMasmProbeTrampoline` (MacroAssemblerX86Common.cpp:520-528) and the CPU feature-check statics (582-589) are left out. The offsetof compile-time checks (113-162) are stated instead as the layout lemmas of `ProbeLayout`, over the modelled layout.
- `PtrTag`: the POINTER_PROFILING configuration and the WebKitAdditions header (PtrTag.h:82-84) are not part of this model. The `bitwise_cast<T>` overloads are the same functions as the untyped ones, because a pointer is its address bits.
- `Logger`:
  - `appendUnsigned64AsHex` is the parameter `hex`.
  - The rendering of int, float and double arguments (Logger.h:41-43) is left out, because number formatting is not part of this model.
  - String, AtomicString and C-string arguments render as their own text.
  - A null method name is not modelled.
- `Logger`: the os_log/WTFLog output of `log` (Logger.h:185-189) is I/O and is left out. Only the observer fan-out is modelled.
- `Logger`: the order of WTFLogLevel comes from WTF's Assertions.h, which is not part of this model. The model takes the declaration order Always, Error, Warning, Notice, Info, Debug.
- `Logger.Logger.SetEnabled`: the debug `ASSERT(owner == m_owner)` is not modelled. Only the release behaviour is: a request from a non-owner is ignored.
- `ServiceWorkerClientFetch`:
  - The resource loader, the client connection, the provider and the callback are outside this model. Calls into them are recorded as events.
  - `didReceiveFormData` (ServiceWorkerClientFetch.cpp:114-117) does nothing and is not modelled.
  - The reference counting (`protectedThis`) is left out.
  - The redirected request's contents and `shouldClearReferrerOnHTTPSToHTTPRedirect` are left out.
- `ServiceWorkerClientFetch.ClientFetch.DidFinish`: `ASSERT_NOT_REACHED()` in the Received branch and `ASSERT(!m_callback)` are debug assertions. The model keeps the release behaviour: Received resets to None and falls through. `RedirectCompleted` likewise leaves out `ASSERT(request == m_loader->request())`. `ServiceWorkerClientFetch.RedirectEitherOrder` shows that the Received branch is reachable: the redirect body ends first, then the completion restarts the fetch, and the status stays Received.
- The value of WebCore's `defaultMIMEType()` comes from a file that is not part of this model. The common value application/octet-stream is used.
- `ServiceWorkerJobData`:
  - The `ServiceWorkerJobData(uint64_t)` constructor and the copy constructor are declared at ServiceWorkerJobData.h:40-41 but defined elsewhere, so they are not part of this model. The same goes for `registrationKey` and `isolatedCopy`.
  - The default constructor leaves `type` uninitialized in the source. The model starts it at Register.
  - `ServiceWorkerJobType` is defined in ServiceWorkerJobType.h, which is not part of this model. The model knows Register (0), the only case the coder's switches name. Every other number is an unnamed value.
  - URLs, SecurityOriginData and RegistrationOptions are opaque values whose own IPC coding is assumed to round-trip.
  - The two identifiers are `nat`. Their 64-bit bound is not modelled.
- `ServiceWorkerJobData.JobTypeOf`: the IPC decoder is not part of this model. `decodeEnum` is modelled as reading a 64-bit number and casting it without a check, so every number decodes. A number that names no case makes `decode` skip the switch and return true without reading options.
- `ServiceWorkerJobData.DecodeStopsAtFirstBadField`: a field whose own decoder fails is modelled as left unchanged. The SecurityOriginData and RegistrationOptions decoders are not part of this model. They may store some members before they fail, so on a failure at field 4 or at the options, the model does not capture those partial writes.
- `ServiceWorkerJobData.JobData.Encode`: the `RELEASE_ASSERT(registrationOptions)` crash is modelled as a precondition (`Encodable`) rather than as a crash.
- `FileReaderSync`:
  - `FileReaderLoader` (blob reading, decoding, data-URL building) is the parameter `load`.
  - The script execution context is left out.
  - The DOM `ExceptionCode` numbers are represented by named values. `0` is `NoException`.

=== FILE: file_reader_sync.dfy ===
/**
 * WebCore's FileReaderSync: the synchronous file reader for workers. Each
 * read runs a FileReaderLoader to completion on the blob, turns the
 * loader's file error code into a DOM exception code, and either throws
 * that exception or returns the loader's result.
 *
 * The loader itself (blob reading, text decoding, data URL building) is
 * outside this model: it is the parameter `load`, a function from the
 * loader's configuration to its error code and results.
 */
module FileReaderSync {

  /**
   * FileError::ErrorCode. `Unlisted(raw)` stands for a value that names none
   * of the enumerators: `raw` is never 0 nor any listed enumerator's value
   * (those are the other constructors). The enumerators' numbers come from
   * FileError.h, which is not part of this model, so that exclusion is a
   * convention of the model rather than a predicate on `raw`.
   */
  datatype FileErrorCode =
    | OK
    | NOT_FOUND_ERR
    | SECURITY_ERR
    | ABORT_ERR
    | NOT_READABLE_ERR
    | ENCODING_ERR
    | NO_MODIFICATION_ALLOWED_ERR
    | INVALID_STATE_ERR
    | SYNTAX_ERR
    | INVALID_MODIFICATION_ERR
    | QUOTA_EXCEEDED_ERR
    | TYPE_MISMATCH_ERR
    | PATH_EXISTS_ERR
    | Unlisted(raw: int)

  /** The DOM exception codes the mapping produces; NoException is the code 0. */
  datatype ExceptionCode =
    | NoException
    | NotFoundErr
    | SecurityErr
    | AbortErr
    | NotReadableError
    | EncodingError
    | NoModificationAllowedErr
    | InvalidStateErr
    | SyntaxErr
    | InvalidModificationErr
    | QuotaExceededErr
    | TypeMismatchErr
    | UnknownError

  /** errorCodeToExceptionCode. */
  function ErrorCodeToExceptionCode(e: FileErrorCode): (c: ExceptionCode)
    ensures c == NoException <==> e == OK
    ensures c == UnknownError <==> e.Unlisted?
    ensures c == NoModificationAllowedErr <==> e == NO_MODIFICATION_ALLOWED_ERR || e == PATH_EXISTS_ERR
  {
    match e
    case OK => NoException
    case NOT_FOUND_ERR => NotFoundErr
    case SECURITY_ERR => SecurityErr
    case ABORT_ERR => AbortErr
    case NOT_READABLE_ERR => NotReadableError
    case ENCODING_ERR => EncodingError
    case NO_MODIFICATION_ALLOWED_ERR => NoModificationAllowedErr
    case INVALID_STATE_ERR => InvalidStateErr
    case SYNTAX_ERR => SyntaxErr
    case INVALID_MODIFICATION_ERR => InvalidModificationErr
    case QUOTA_EXCEEDED_ERR => QuotaExceededErr
    case TYPE_MISMATCH_ERR => TypeMismatchErr
    case PATH_EXISTS_ERR => NoModificationAllowedErr
    case Unlisted(_) => UnknownError
  }

  /**
   * The mapping loses information only where the source merges codes:
   * PATH_EXISTS_ERR shares NO_MODIFICATION_ALLOWED_ERR's exception, and
   * every unlisted value becomes UnknownError. Any other two distinct
   * codes give distinct exceptions.
   */
  lemma MappingCollisions(a: FileErrorCode, b: FileErrorCode)
    requires a != b && ErrorCodeToExceptionCode(a) == ErrorCodeToExceptionCode(b)
    ensures (a.Unlisted? && b.Unlisted?) ||
            ({a, b} == {NO_MODIFICATION_ALLOWED_ERR, PATH_EXISTS_ERR})
  {
  }

  /** A left inverse of the mapping on the codes it keeps apart (every exception except UnknownError). */
  function ExceptionToFileError(c: ExceptionCode): (e: FileErrorCode)
    requires c != UnknownError
    ensures ErrorCodeToExceptionCode(e) == c
  {
    match c
    case NoException => OK
    case NotFoundErr => NOT_FOUND_ERR
    case SecurityErr => SECURITY_ERR
    case AbortErr => ABORT_ERR
    case NotReadableError => NOT_READABLE_ERR
    case EncodingError => ENCODING_ERR
    case NoModificationAllowedErr => NO_MODIFICATION_ALLOWED_ERR
    case InvalidStateErr => INVALID_STATE_ERR
    case SyntaxErr => SYNTAX_ERR
    case InvalidModificationErr => INVALID_MODIFICATION_ERR
    case QuotaExceededErr => QUOTA_EXCEEDED_ERR
    case TypeMismatchErr => TYPE_MISMATCH_ERR
  }

  /** Mapping a listed code other than PATH_EXISTS_ERR and back gives the code again. */
  lemma MappingRoundTrip(e: FileErrorCode)
    requires !e.Unlisted? && e != PATH_EXISTS_ERR
    ensures ExceptionToFileError(ErrorCodeToExceptionCode(e)) == e
  {
  }

  /** ExceptionOr<T>. */
  datatype ExceptionOr<T> = Exception(code: ExceptionCode) | Value(value: T)

  /** FileReaderLoader::ReadType. */
  datatype ReadType = ArrayBufferRead | BinaryStringRead | TextRead | DataURLRead

  datatype Blob = Blob(id: nat, contentType: string)

  /** How the loader was configured before `start`: the read type, setEncoding and setDataType ("" when not set). */
  datatype LoaderRequest = LoaderRequest(readType: ReadType, blob: Blob, encoding: string, dataType: string)

  /** What the loader has after `start`: its error code and both of its results. */
  datatype LoadOutcome = LoadOutcome(errorCode: FileErrorCode, stringResult: string, arrayBufferResult: seq<bv8>)

  /** startLoading: runs the loader and throws the mapped exception when the code is not 0. */
  function StartLoading(request: LoaderRequest, load: LoaderRequest -> LoadOutcome): (r: ExceptionOr<()>)
    ensures r.Exception? <==> load(request).errorCode != OK
    ensures r.Exception? ==> r.code == ErrorCodeToExceptionCode(load(request).errorCode) && r.code != NoException
  {
    var code := ErrorCodeToExceptionCode(load(request).errorCode);
    if code != NoException then Exception(code) else Value(())
  }

  /** startLoadingString: startLoading's exception unchanged, or the loader's string result. */
  function StartLoadingString(request: LoaderRequest, load: LoaderRequest -> LoadOutcome): (r: ExceptionOr<string>)
    ensures r.Exception? <==> load(request).errorCode != OK
    ensures r.Exception? ==> r == Exception(StartLoading(request, load).code)
    ensures r.Value? ==> r.value == load(request).stringResult
  {
    var result := StartLoading(request, load);
    if result.Exception? then Exception(result.code) else Value(load(request).stringResult)
  }

  /** readAsArrayBuffer: an array-buffer load of the blob. */
  function ReadAsArrayBuffer(blob: Blob, load: LoaderRequest -> LoadOutcome): (r: ExceptionOr<seq<bv8>>)
    ensures var o := load(LoaderRequest(ArrayBufferRead, blob, "", ""));
      (r.Exception? <==> o.errorCode != OK) &&
      (r.Exception? ==> r.code == ErrorCodeToExceptionCode(o.errorCode)) &&
      (r.Value? ==> r.value == o.arrayBufferResult)
  {
    var request := LoaderRequest(ArrayBufferRead, blob, "", "");
    var result := StartLoading(request, load);
    if result.Exception? then Exception(result.code) else Value(load(request).arrayBufferResult)
  }

  /** readAsBinaryString: a binary-string load of the blob. */
  function ReadAsBinaryString(blob: Blob, load: LoaderRequest -> LoadOutcome): (r: ExceptionOr<string>)
    ensures var o := load(LoaderRequest(BinaryStringRead, blob, "", ""));
      (r.Exception? <==> o.errorCode != OK) &&
      (r.Exception? ==> r.code == ErrorCodeToExceptionCode(o.errorCode)) &&
      (r.Value? ==> r.value == o.stringResult)
  {
    StartLoadingString(LoaderRequest(BinaryStringRead, blob, "", ""), load)
  }

  /** readAsText: a text load of the blob, with the encoding set on the loader before it starts. */
  function ReadAsText(blob: Blob, encoding: string, load: LoaderRequest -> LoadOutcome): (r: ExceptionOr<string>)
    ensures var o := load(LoaderRequest(TextRead, blob, encoding, ""));
      (r.Exception? <==> o.errorCode != OK) &&
      (r.Exception? ==> r.code == ErrorCodeToExceptionCode(o.errorCode)) &&
      (r.Value? ==> r.value == o.stringResult)
  {
    StartLoadingString(LoaderRequest(TextRead, blob, encoding, ""), load)
  }

  /** readAsDataURL: a data-URL load of the blob, with the loader's data type set to the blob's type. */
  function ReadAsDataURL(blob: Blob, load: LoaderRequest -> LoadOutcome): (r: ExceptionOr<string>)
    ensures var o := load(LoaderRequest(DataURLRead, blob, "", blob.contentType));
      (r.Exception? <==> o.errorCode != OK) &&
      (r.Exception? ==> r.code == ErrorCodeToExceptionCode(o.errorCode)) &&
      (r.Value? ==> r.value == o.stringResult)
  {
    StartLoadingString(LoaderRequest(DataURLRead, blob, "", blob.contentType), load)
  }
}

=== FILE: logger.dfy ===
/**
 * PAL's Logger: a per-owner on/off switch, a message filter by channel and
 * level, a process-wide list of observers that every emitted message is
 * handed to, and the textual rendering of the log arguments.
 */
module Logger {

  /**
   * WTFLogLevel, most severe first. The enumerators' order (and so the
   * `>` in the filter) follows their declaration order in WTF's
   * Assertions.h: Always < Error < Warning < Notice < Info < Debug.
   */
  datatype LogLevel = Always | Error | Warning | Notice | Info | Debug

  function Rank(l: LogLevel): (r: nat)
    ensures r <= 5 && (r == 0 <==> l == Always)
  {
    match l
    case Always => 0
    case Error => 1
    case Warning => 2
    case Notice => 3
    case Info => 4
    case Debug => 5
  }

  /** WTFLogChannelState. */
  datatype ChannelState = Off | On | OnWithAccumulation

  /** The part of a WTFLogChannel the logger reads (the OS log handle is left out). */
  datatype LogChannel = LogChannel(name: string, state: ChannelState, level: LogLevel)

  /** An observer, by identity (the source compares observer addresses). */
  type ObserverId = nat

  /** One didLogMessage(channel, message) call on an observer. */
  datatype Delivery = Delivery(observer: ObserverId, channel: LogChannel, message: string)

  // ---------------------------------------------------------------------
  // Argument rendering
  // ---------------------------------------------------------------------

  datatype Option<T> = None | Some(value: T)

  /** Logger::MethodAndPointer: an optional class name (null by default), a method name and an address. */
  datatype MethodAndPointer = MethodAndPointer(className: Option<string>, methodName: string, objectPtr: nat)

  /** The two-argument constructor: no class name. */
  function MethodOnly(methodName: string, objectPtr: nat): (v: MethodAndPointer)
    ensures v.className == None && v.methodName == methodName && v.objectPtr == objectPtr
  {
    MethodAndPointer(None, methodName, objectPtr)
  }

  /**
   * The argument kinds whose rendering is modelled. String, AtomicString
   * and C strings all render as their own text; numbers are left out.
   */
  datatype LogArgument =
    | BoolArg(b: bool)
    | TextArg(text: string)
    | MethodArg(mp: MethodAndPointer)

  /** LogArgument<bool>::toString. */
  function BoolToString(b: bool): (s: string)
    ensures s == "true" || s == "false"
    ensures (s == "true") == b
  {
    if b then "true" else "false"
  }

  /**
   * LogArgument<MethodAndPointer>::toString: `Class::method(0x<hex>) `,
   * without `Class::` when the class name is null. `hex` is the rendering
   * of appendUnsigned64AsHex, which is not part of this model.
   */
  function MethodAndPointerToString(v: MethodAndPointer, hex: nat -> string): (s: string)
    ensures |s| == (if v.className.Some? then |v.className.value| + 2 else 0) + |v.methodName| + 5 + |hex(v.objectPtr)|
    ensures s[|s| - 2..] == ") "
    ensures v.className.None? ==> s[..|v.methodName|] == v.methodName
    ensures v.className.Some? ==> s[..|v.className.value| + 2] == v.className.value + "::"
    ensures var p := if v.className.Some? then |v.className.value| + 2 else 0;
      var m := |v.methodName|;
      s[p..p + m] == v.methodName && s[p + m..p + m + 3] == "(0x" && s[p + m + 3..|s| - 2] == hex(v.objectPtr)
  {
    var prefix := if v.className.Some? then v.className.value + "::" else "";
    prefix + v.methodName + "(0x" + hex(v.objectPtr) + ") "
  }

  /** The class name is a pure prefix: the rest is what the method-only form renders. */
  lemma ClassNameIsPrefix(className: string, methodName: string, objectPtr: nat, hex: nat -> string)
    ensures MethodAndPointerToString(MethodAndPointer(Some(className), methodName, objectPtr), hex) ==
            className + "::" + MethodAndPointerToString(MethodOnly(methodName, objectPtr), hex)
  {
  }

  /** LogArgument<T>::toString, chosen by the argument's type. */
  function ArgumentToString(arg: LogArgument, hex: nat -> string): (s: string)
    ensures arg.BoolArg? ==> (s == "true" <==> arg.b)
    ensures arg.TextArg? ==> s == arg.text
    ensures arg.MethodArg? ==> |s| >= 5 && s[|s| - 2..] == ") "
  {
    match arg
    case BoolArg(b) => BoolToString(b)
    case TextArg(t) => t
    case MethodArg(mp) => MethodAndPointerToString(mp, hex)
  }

  /** makeString(LogArgument<Argument>::toString(arguments)...): the renderings, concatenated in order. */
  function MakeMessage(args: seq<LogArgument>, hex: nat -> string): (s: string)
    ensures args == [] ==> s == ""
    ensures |args| == 1 ==> s == ArgumentToString(args[0], hex)
  {
    if args == [] then "" else ArgumentToString(args[0], hex) + MakeMessage(args[1..], hex)
  }

  /** Rendering distributes over concatenation of the argument lists. */
  lemma {:induction false} MakeMessageAppend(xs: seq<LogArgument>, ys: seq<LogArgument>, hex: nat -> string)
    ensures MakeMessage(xs + ys, hex) == MakeMessage(xs, hex) + MakeMessage(ys, hex)
    decreases |xs|
  {
    if xs == [] {
      assert xs + ys == ys;
    } else {
      assert (xs + ys)[1..] == xs[1..] + ys;
      MakeMessageAppend(xs[1..], ys, hex);
    }
  }

  // ---------------------------------------------------------------------
  // The observer list (a process-wide static vector)
  // ---------------------------------------------------------------------

  /** Vector::removeFirstMatching with an identity match: drops the first occurrence of `o`, if any. */
  function RemoveFirst(s: seq<ObserverId>, o: ObserverId): (r: seq<ObserverId>)
    ensures o !in s ==> r == s
    ensures o in s ==> |r| == |s| - 1
  {
    if s == [] then []
    else if s[0] == o then s[1..]
    else [s[0]] + RemoveFirst(s[1..], o)
  }

  /**
   * RemoveFirst removes exactly the first match: when `o` first occurs at
   * index i, everything before i and everything after it stays, in order.
   */
  lemma {:induction false} RemoveFirstAt(s: seq<ObserverId>, o: ObserverId, i: nat)
    requires i < |s| && s[i] == o
    requires forall k :: 0 <= k < i ==> s[k] != o
    ensures RemoveFirst(s, o) == s[..i] + s[i + 1..]
  {
    if i == 0 {
      assert s[..0] + s[1..] == s[1..];
    } else {
      var t := s[1..];
      RemoveFirstAt(t, o, i - 1);
      assert s[..i] == [s[0]] + t[..i - 1];
      assert s[i + 1..] == t[i..];
      assert RemoveFirst(s, o) == [s[0]] + (t[..i - 1] + t[i..]);
    }
  }

  /** Exactly one registration of `o` leaves the multiset of registrations; nothing else changes. */
  lemma {:induction false} RemoveFirstMultiset(s: seq<ObserverId>, o: ObserverId)
    ensures multiset(RemoveFirst(s, o)) == multiset(s) - multiset{o}
  {
    if s != [] {
      var t := s[1..];
      assert s == [s[0]] + t;
      assert multiset(s) == multiset{s[0]} + multiset(t);
      if s[0] != o {
        RemoveFirstMultiset(t, o);
        assert RemoveFirst(s, o) == [s[0]] + RemoveFirst(t, o);
        assert multiset(RemoveFirst(s, o)) == multiset{s[0]} + (multiset(t) - multiset{o});
      }
    }
  }

  /** Adding an observer and then removing it leaves the list as it was when it was not registered before. */
  lemma {:induction false} AddThenRemove(s: seq<ObserverId>, o: ObserverId)
    requires o !in s
    ensures RemoveFirst(s + [o], o) == s
  {
    if s != [] {
      assert (s + [o])[1..] == s[1..] + [o];
      AddThenRemove(s[1..], o);
      assert s == [s[0]] + s[1..];
    }
  }

  /** The calls `log` makes: one per registered observer, in registration order, all with the same message. */
  function Deliveries(observers: seq<ObserverId>, channel: LogChannel, message: string): (d: seq<Delivery>)
    ensures |d| == |observers|
    ensures forall i :: 0 <= i < |d| ==> d[i] == Delivery(observers[i], channel, message)
  {
    seq(|observers|, i requires 0 <= i < |observers| => Delivery(observers[i], channel, message))
  }

  /**
   * Logger's static state: the observer vector, and every didLogMessage
   * call made so far (the observers' side of the fan-out).
   */
  class ObserverRegistry {
    var observers: seq<ObserverId>
    var delivered: seq<Delivery>

    constructor()
      ensures observers == [] && delivered == []
    {
      observers := [];
      delivered := [];
    }

    /** Logger::addObserver: appends. */
    method AddObserver(o: ObserverId)
      modifies this
      ensures observers == old(observers) + [o]
      ensures delivered == old(delivered)
    {
      observers := observers + [o];
    }

    /** Logger::removeObserver: removes the first registration of `o`. */
    method RemoveObserver(o: ObserverId)
      modifies this
      ensures observers == RemoveFirst(old(observers), o)
      ensures delivered == old(delivered)
    {
      observers := RemoveFirst(observers, o);
    }

    /**
     * Logger::log after the message is built: the loop over the observers.
     * (The os_log / WTFLog output is not part of this model.)
     */
    method Log(channel: LogChannel, message: string)
      modifies this
      ensures observers == old(observers)
      ensures delivered == old(delivered) + Deliveries(observers, channel, message)
    {
      var i := 0;
      while i < |observers|
        invariant 0 <= i <= |observers|
        invariant observers == old(observers)
        invariant delivered == old(delivered) + Deliveries(observers[..i], channel, message)
      {
        delivered := delivered + [Delivery(observers[i], channel, message)];
        i := i + 1;
        assert Deliveries(observers[..i], channel, message) ==
               Deliveries(observers[..i - 1], channel, message) + [Delivery(observers[i - 1], channel, message)];
      }
      assert observers[..i] == observers;
    }
  }

  // ---------------------------------------------------------------------
  // The logger
  // ---------------------------------------------------------------------

  class Logger {
    const owner: nat
    var enabled: bool
    /** Whether the build has RELEASE_LOG_DISABLED set (logAlways then emits nothing). */
    const releaseLogDisabled: bool

    /** Logger::create(owner): enabled from the start. */
    constructor(owner: nat, releaseLogDisabled: bool)
      ensures this.owner == owner && this.releaseLogDisabled == releaseLogDisabled
      ensures enabled
    {
      this.owner := owner;
      this.releaseLogDisabled := releaseLogDisabled;
      enabled := true;
    }

    /** Logger::willLog: only an enabled logger logs, and only at a level its channel lets through. */
    predicate WillLog(channel: LogChannel, level: LogLevel): (r: bool)
      reads this
      ensures r ==> enabled
      ensures r ==> level == Always || Rank(level) <= Rank(channel.level)
    {
      if level != Always && Rank(level) > Rank(channel.level) then false
      else if channel.level != Always && channel.state == Off then false
      else enabled
    }

    /** Logger::enabled. */
    function Enabled(): (e: bool)
      reads this
      ensures e ==> WillLog(LogChannel("", On, Always), Always)
      ensures !e ==> forall channel, level :: !WillLog(channel, level)
    {
      enabled
    }

    /** Logger::setEnabled: only the owner's request takes effect. */
    method SetEnabled(requester: nat, e: bool)
      modifies this
      ensures enabled == (if requester == owner then e else old(enabled))
    {
      if requester == owner {
        enabled := e;
      }
    }

    /**
     * The level wrappers (logAlways, error, warning, notice, info, debug):
     * render the arguments and hand them to `log` only when WillLog holds.
     */
    method LogAt(registry: ObserverRegistry, channel: LogChannel, level: LogLevel, args: seq<LogArgument>, hex: nat -> string)
      modifies registry
      ensures registry.observers == old(registry.observers)
      ensures registry.delivered == old(registry.delivered) +
        (if WillLog(channel, level) then Deliveries(registry.observers, channel, MakeMessage(args, hex)) else [])
    {
      if !WillLog(channel, level) {
        return;
      }
      registry.Log(channel, MakeMessage(args, hex));
    }

    method LogAlways(registry: ObserverRegistry, channel: LogChannel, args: seq<LogArgument>, hex: nat -> string)
      modifies registry
      ensures registry.observers == old(registry.observers)
      ensures registry.delivered == old(registry.delivered) +
        (if !releaseLogDisabled && WillLog(channel, Always) then Deliveries(registry.observers, channel, MakeMessage(args, hex)) else [])
    {
      if releaseLogDisabled {
        return;
      }
      LogAt(registry, channel, Always, args, hex);
    }

    method LogError(registry: ObserverRegistry, channel: LogChannel, args: seq<LogArgument>, hex: nat -> string)
      modifies registry
      ensures registry.observers == old(registry.observers)
      ensures registry.delivered == old(registry.delivered) +
        (if WillLog(channel, Error) then Deliveries(registry.observers, channel, MakeMessage(args, hex)) else [])
    {
      LogAt(registry, channel, Error, args, hex);
    }

    method LogWarning(registry: ObserverRegistry, channel: LogChannel, args: seq<LogArgument>, hex: nat -> string)
      modifies registry
      ensures registry.observers == old(registry.observers)
      ensures registry.delivered == old(registry.delivered) +
        (if WillLog(channel, Warning) then Deliveries(registry.observers, channel, MakeMessage(args, hex)) else [])
    {
      LogAt(registry, channel, Warning, args, hex);
    }

    method LogNotice(registry: ObserverRegistry, channel: LogChannel, args: seq<LogArgument>, hex: nat -> string)
      modifies registry
      ensures registry.observers == old(registry.observers)
      ensures registry.delivered == old(registry.delivered) +
        (if WillLog(channel, Notice) then Deliveries(registry.observers, channel, MakeMessage(args, hex)) else [])
    {
      LogAt(registry, channel, Notice, args, hex);
    }

    method LogInfo(registry: ObserverRegistry, channel: LogChannel, args: seq<LogArgument>, hex: nat -> string)
      modifies registry
      ensures registry.observers == old(registry.observers)
      ensures registry.delivered == old(registry.delivered) +
        (if WillLog(channel, Info) then Deliveries(registry.observers, channel, MakeMessage(args, hex)) else [])
    {
      LogAt(registry, channel, Info, args, hex);
    }

    method LogDebug(registry: ObserverRegistry, channel: LogChannel, args: seq<LogArgument>, hex: nat -> string)
      modifies registry
      ensures registry.observers == old(registry.observers)
      ensures registry.delivered == old(registry.delivered) +
        (if WillLog(channel, Debug) then Deliveries(registry.observers, channel, MakeMessage(args, hex)) else [])
    {
      LogAt(registry, channel, Debug, args, hex);
    }
  }

  /**
   * The filter, stated without the order of its tests: a message passes
   * exactly when the logger is enabled, its level is Always or no more
   * verbose than the channel's, and the channel is Always-level or not Off.
   */
  lemma WillLogCharacterized(logger: Logger, channel: LogChannel, level: LogLevel)
    ensures logger.WillLog(channel, level) <==>
      logger.enabled &&
      (level == Always || Rank(level) <= Rank(channel.level)) &&
      (channel.level == Always || channel.state != Off)
  {
  }

  /** A channel that passes a level passes every more severe level, and Always passes the level test on every channel. */
  lemma WillLogMonotonic(logger: Logger, channel: LogChannel, level: LogLevel, severer: LogLevel)
    requires Rank(severer) <= Rank(level)
    ensures logger.WillLog(channel, level) ==> logger.WillLog(channel, severer)
    ensures logger.WillLog(channel, Always) == (logger.enabled && (channel.level == Always || channel.state != Off))
  {
  }

  /**
   * Any logger, once its owner has switched it off, delivers nothing on any
   * channel, at any level, whatever the arguments; a request from anyone else
   * leaves the switch as it was.
   */
  method DisabledLoggerDeliversNothing(logger: Logger, registry: ObserverRegistry, requester: nat, e: bool,
                                       channel: LogChannel, level: LogLevel, args: seq<LogArgument>, hex: nat -> string)
    modifies logger, registry
    ensures !logger.enabled
    ensures registry.delivered == old(registry.delivered)
  {
    logger.SetEnabled(logger.owner, false);
    if requester != logger.owner {
      logger.SetEnabled(requester, e);
    }
    logger.LogAt(registry, channel, level, args, hex);
  }

  /**
   * A worked session: a fresh logger logs an error to two observers on an
   * enabled channel; after its owner disables it, nothing more is delivered;
   * a request from another owner does not re-enable it.
   */
  method DisabledLoggerIsSilent(registry: ObserverRegistry, hex: nat -> string)
    modifies registry
    ensures registry.delivered == old(registry.delivered) +
      Deliveries(old(registry.observers) + [1, 2], LogChannel("Media", On, Error), "true")
  {
    var logger := new Logger(7, false);
    var channel := LogChannel("Media", On, Error);
    registry.AddObserver(1);
    registry.AddObserver(2);
    var observers := registry.observers;
    logger.LogError(registry, channel, [BoolArg(true)], hex);
    logger.SetEnabled(7, false);
    logger.LogError(registry, channel, [BoolArg(false)], hex);
    logger.SetEnabled(8, true);
    logger.LogAlways(registry, channel, [BoolArg(false)], hex);
  }
}

=== FILE: probe_emission.dfy ===
/**
 * MacroAssembler::probe: the short sequence the JIT emits at a probe site.
 * It keeps only the stack pointer and eax, passes the probe function and its
 * argument on the stack, and calls the trampoline through eax; the
 * trampoline does the rest.
 *
 * The emitted instructions are given a meaning on the abstract machine
 * (Step/Run), so that the emitted sequence followed by the trampoline can be
 * shown to resume with every register as it was before the probe.
 */
module ProbeEmission {
  import opened ProbeLayout
  import opened ProbeMachine
  import opened ProbeTrampoline

  /** The instructions the probe sequence uses. */
  datatype Insn =
    | Push(reg: nat)
    | MoveImm(imm: Word, reg: nat)
    | CallReg(reg: nat)

  predicate ValidInsn(a: Arch, i: Insn)
  {
    match i
    case Push(r) => r < GprCount(a)
    case MoveImm(_, r) => r < GprCount(a)
    case CallReg(r) => r < GprCount(a)
  }

  /** The code buffer the JIT appends to. */
  class MacroAssembler {
    var code: seq<Insn>

    constructor()
      ensures code == []
    {
      code := [];
    }

    method EmitPush(r: nat)
      modifies this
      ensures code == old(code) + [Push(r)]
    {
      code := code + [Push(r)];
    }

    method EmitMove(imm: Word, r: nat)
      modifies this
      ensures code == old(code) + [MoveImm(imm, r)]
    {
      code := code + [MoveImm(imm, r)];
    }

    method EmitCall(r: nat)
      modifies this
      ensures code == old(code) + [CallReg(r)]
    {
      code := code + [CallReg(r)];
    }

    /**
     * Emits the probe: push esp, push eax, pass the argument and the
     * function through eax onto the stack, and call the trampoline through
     * eax. `trampoline` is the trampoline's address.
     */
    method Probe(probeFunction: Word, arg: Word, trampoline: Word)
      modifies this
      ensures code == old(code) + ProbeSequence(probeFunction, arg, trampoline)
    {
      EmitPush(ESP);
      EmitPush(EAX);
      EmitMove(arg, EAX);
      EmitPush(EAX);
      EmitMove(probeFunction, EAX);
      EmitPush(EAX);
      EmitMove(trampoline, EAX);
      EmitCall(EAX);
    }
  }

  /** The instructions MacroAssembler::probe emits, in order. */
  function ProbeSequence(probeFunction: Word, arg: Word, trampoline: Word): (code: seq<Insn>)
    ensures |code| == 8 && code[7] == CallReg(EAX)
    ensures forall a: Arch, k :: 0 <= k < |code| ==> ValidInsn(a, code[k])
  {
    [Push(ESP), Push(EAX), MoveImm(arg, EAX), Push(EAX), MoveImm(probeFunction, EAX), Push(EAX),
     MoveImm(trampoline, EAX), CallReg(EAX)]
  }

  /**
   * One instruction. A push stores the register's value before the push
   * (so `push esp` stores the old stack pointer); a call pushes `ret`, the
   * address of the instruction after it, and jumps.
   */
  function Step(a: Arch, m: Machine, i: Insn, ret: Word): (m': Machine)
    requires CpuShape(a, m.cpu) && ValidInsn(a, i)
    ensures CpuShape(a, m'.cpu)
  {
    var g := m.cpu.gprs;
    match i
    case Push(r) =>
      Machine(m.cpu.(gprs := g[ESP := g[ESP] - PtrSize(a)]), m.mem[g[ESP] - PtrSize(a) := g[r]])
    case MoveImm(imm, r) =>
      Machine(m.cpu.(gprs := g[r := imm]), m.mem)
    case CallReg(r) =>
      Machine(m.cpu.(gprs := g[ESP := g[ESP] - PtrSize(a)], eip := g[r]), m.mem[g[ESP] - PtrSize(a) := ret])
  }

  /** Runs a straight-line sequence; `ret` is the address after its last instruction. */
  function Run(a: Arch, m: Machine, code: seq<Insn>, ret: Word): (m': Machine)
    requires CpuShape(a, m.cpu) && forall k :: 0 <= k < |code| ==> ValidInsn(a, code[k])
    ensures CpuShape(a, m'.cpu)
    decreases |code|
  {
    if code == [] then m else Run(a, Step(a, m, code[0], ret), code[1..], ret)
  }

  /** The emitted sequence runs its eight instructions one after the other. */
  lemma {:induction false} ProbeSequenceSteps(a: Arch, m: Machine, probeFunction: Word, arg: Word, trampoline: Word, ret: Word)
    requires CpuShape(a, m.cpu)
    ensures var code := ProbeSequence(probeFunction, arg, trampoline);
      var m1 := Step(a, m, code[0], ret);
      var m2 := Step(a, m1, code[1], ret);
      var m3 := Step(a, m2, code[2], ret);
      var m4 := Step(a, m3, code[3], ret);
      var m5 := Step(a, m4, code[4], ret);
      var m6 := Step(a, m5, code[5], ret);
      var m7 := Step(a, m6, code[6], ret);
      Run(a, m, code, ret) == Step(a, m7, code[7], ret)
  {
    var code := ProbeSequence(probeFunction, arg, trampoline);
    var m1 := Step(a, m, code[0], ret);
    var m2 := Step(a, m1, code[1], ret);
    var m3 := Step(a, m2, code[2], ret);
    var m4 := Step(a, m3, code[3], ret);
    var m5 := Step(a, m4, code[4], ret);
    var m6 := Step(a, m5, code[5], ret);
    var m7 := Step(a, m6, code[6], ret);
    var m8 := Step(a, m7, code[7], ret);
    assert Run(a, m7, code[7..], ret) == m8 by { assert code[7..][1..] == []; }
    assert Run(a, m6, code[6..], ret) == m8 by { assert code[6..][1..] == code[7..]; }
    assert Run(a, m5, code[5..], ret) == m8 by { assert code[5..][1..] == code[6..]; }
    assert Run(a, m4, code[4..], ret) == m8 by { assert code[4..][1..] == code[5..]; }
    assert Run(a, m3, code[3..], ret) == m8 by { assert code[3..][1..] == code[4..]; }
    assert Run(a, m2, code[2..], ret) == m8 by { assert code[2..][1..] == code[3..]; }
    assert Run(a, m1, code[1..], ret) == m8 by { assert code[1..][1..] == code[2..]; }
  }

  /**
   * What the emitted sequence leaves for the trampoline: five words pushed
   * below the old stack pointer (from the new stack pointer up: the return
   * address, the probe function, its argument, the old eax and the old
   * stack pointer), eax and eip holding the trampoline's address, and every
   * other register, the flags and the XMM lanes untouched.
   */
  lemma {:induction false} ProbeSequenceEffect(a: Arch, m: Machine, probeFunction: Word, arg: Word, trampoline: Word, ret: Word)
    requires CpuShape(a, m.cpu)
    ensures var m' := Run(a, m, ProbeSequence(probeFunction, arg, trampoline), ret);
      var sp := Sp(m) - OutSize(a);
      m'.cpu == m.cpu.(gprs := m.cpu.gprs[ESP := sp][EAX := trampoline], eip := trampoline) &&
      Load(m'.mem, sp) == ret && Load(m'.mem, sp + Words(a, 1)) == probeFunction &&
      Load(m'.mem, sp + Words(a, 2)) == arg && Load(m'.mem, sp + Words(a, 3)) == m.cpu.gprs[EAX] &&
      Load(m'.mem, sp + Words(a, 4)) == Sp(m) &&
      (forall addr {:trigger Load(m'.mem, addr)} :: !(sp <= addr < Sp(m)) ==> Load(m'.mem, addr) == Load(m.mem, addr))
  {
    ProbeSequenceSteps(a, m, probeFunction, arg, trampoline, ret);
    var g, sp := m.cpu.gprs, Sp(m);
    var p := PtrSize(a);
    var m' := Run(a, m, ProbeSequence(probeFunction, arg, trampoline), ret);
    assert m'.mem == m.mem[sp - p := sp][sp - 2 * p := g[EAX]][sp - 3 * p := arg][sp - 4 * p := probeFunction][sp - 5 * p := ret];
    assert m'.cpu.gprs == g[ESP := sp - 5 * p][EAX := trampoline];
  }

  /** A probe function that leaves the context as it found it. */
  const NoChange: Callback := w => w

  /**
   * The record the trampoline captures at a probe site: eflags, the return
   * address as eip, the probe function and argument, and every GPR as it was
   * before the emitted sequence (eax and esp from the pushed copies).
   */
  lemma CapturedAtProbeSite(a: Arch, m: Machine, probeFunction: Word, arg: Word, trampoline: Word, ret: Word)
    requires CpuShape(a, m.cpu)
    ensures var m' := Run(a, m, ProbeSequence(probeFunction, arg, trampoline), ret);
      var stale := ContextAt(a, m'.mem, EntryContext(a, Sp(m')))[Slot(a, InitializeStackArg)];
      Sp(m') == Sp(m) - OutSize(a) &&
      Captured(a, m') == CapturedRecord(m.cpu.eflags, ret, probeFunction, arg, m.cpu.gprs[EAX], Sp(m), stale,
                                        m'.cpu.gprs, m.cpu.xmms) &&
      m'.cpu.gprs[EAX := m.cpu.gprs[EAX]][ESP := Sp(m)] == m.cpu.gprs
  {
    ProbeSequenceEffect(a, m, probeFunction, arg, trampoline, ret);
  }

  /**
   * The round trip: the emitted sequence followed by the trampoline, with a
   * probe function that changes nothing, calls that function once (with the
   * context built below the pushed words) and no initializer, and resumes at
   * `ret`, the instruction after the probe, with every register, the stack
   * pointer, the flags and the XMM lanes as they were before the probe.
   */
  method ProbeRoundTrip(a: Arch, m: Machine, probeFunction: Word, arg: Word, trampoline: Word, ret: Word,
                        clobber: Word) returns (r: Machine, calls: seq<Call>)
    requires CpuShape(a, m.cpu)
    ensures r.cpu == m.cpu.(eip := ret)
    ensures calls == [Call(probeFunction, EntryContext(a, Sp(m) - OutSize(a)))]
  {
    var m1 := Run(a, m, ProbeSequence(probeFunction, arg, trampoline), ret);
    CapturedAtProbeSite(a, m, probeFunction, arg, trampoline, ret);
    var w := Captured(a, m1);
    var stale := ContextAt(a, m1.mem, EntryContext(a, Sp(m1)))[Slot(a, InitializeStackArg)];
    CapturedRecordFields(a, m.cpu.eflags, ret, probeFunction, arg, m.cpu.gprs[EAX], Sp(m), stale, m1.cpu.gprs, m.cpu.xmms);
    ResumeCapturedRecord(a, m.cpu.eflags, ret, probeFunction, arg, m.cpu.gprs[EAX], Sp(m), stale, m1.cpu.gprs, m.cpu.xmms);
    assert Probed(a, m1, NoChange) == w;
    // The probe leaves initializeStackFunction at the 0 the trampoline stored, so
    // the initializer passed here is never called.
    r, calls := Trampoline(a, m1, NoChange, NoChange, clobber);
  }
}

=== FILE: probe_layout.dfy ===
/**
 * The byte layout of the probe context (the CPU-state record that the probe
 * trampoline builds on the stack), for the two x86 variants.
 *
 * Every offset is written the way the trampoline's constants are: a number of
 * pointer-sized words, or a number of 8-byte XMM slots after the first XMM
 * offset. `Words(a, k)` is k pointer-sized words in bytes; it is spelled out
 * per architecture so that every address computation stays linear.
 */
module ProbeLayout {

  /** The two targets the trampoline is written for (32-bit and 64-bit). */
  datatype Arch = X86 | X86_64

  function PtrSize(a: Arch): (r: nat)
    ensures r == 4 || r == 8
  {
    match a
    case X86 => 4
    case X86_64 => 8
  }

  /** k pointer-sized words, in bytes. */
  function Words(a: Arch, k: int): int
  {
    match a
    case X86 => 4 * k
    case X86_64 => 8 * k
  }

  /** XMM_SIZE: only the low 8 bytes of each XMM register are saved. */
  const XMM_SIZE: nat := 8

  function GprCount(a: Arch): nat
  {
    match a
    case X86 => 8
    case X86_64 => 16
  }

  function XmmCount(a: Arch): nat
  {
    match a
    case X86 => 8
    case X86_64 => 16
  }

  /** Pointer-sized words per 8-byte XMM slot. */
  function XmmLanes(a: Arch): nat
  {
    match a
    case X86 => 2
    case X86_64 => 1
  }

  /** The pointer-sized words of the saved XMM state: eight registers of two lanes, or sixteen of one. */
  function XmmWords(a: Arch): nat
  {
    match a
    case X86 => 16
    case X86_64 => 16
  }

  lemma XmmWordsIsLanes(a: Arch)
    ensures XmmWords(a) == XmmCount(a) * XmmLanes(a)
    ensures XmmWords(a) * PtrSize(a) == XmmCount(a) * XMM_SIZE
  {
  }

  // General-purpose register numbers, in the order of the GPR slots.
  const EAX: nat := 0
  const ECX: nat := 1
  const EDX: nat := 2
  const EBX: nat := 3
  const ESP: nat := 4
  const EBP: nat := 5
  const ESI: nat := 6
  const EDI: nat := 7
  const R8: nat := 8

  /** The fields of the probe context. An XMM slot is split into word-sized lanes. */
  datatype Field =
    | ProbeFunction
    | Arg
    | InitializeStackFunction
    | InitializeStackArg
    | Gpr(n: nat)
    | Eip
    | Eflags
    | XmmLane(n: nat, lane: nat)

  predicate ValidField(a: Arch, f: Field)
  {
    match f
    case Gpr(n) => n < GprCount(a)
    case XmmLane(n, lane) => n < XmmCount(a) && lane < XmmLanes(a)
    case _ => true
  }

  function FirstGprOffset(a: Arch): int { Words(a, 4) }

  function FirstSprOffset(a: Arch): int { FirstGprOffset(a) + Words(a, GprCount(a)) }

  function FirstXmmOffset(a: Arch): int { FirstSprOffset(a) + Words(a, 2) }

  /** The byte offset of a field from the start of the context. */
  function Offset(a: Arch, f: Field): int
  {
    match f
    case ProbeFunction => Words(a, 0)
    case Arg => Words(a, 1)
    case InitializeStackFunction => Words(a, 2)
    case InitializeStackArg => Words(a, 3)
    case Gpr(n) => FirstGprOffset(a) + Words(a, n)
    case Eip => FirstSprOffset(a) + Words(a, 0)
    case Eflags => FirstSprOffset(a) + Words(a, 1)
    case XmmLane(n, lane) => FirstXmmOffset(a) + 8 * n + Words(a, lane)  // n * XMM_SIZE
  }

  /** PROBE_SIZE: the end of the last XMM slot. */
  function ProbeSize(a: Arch): int { FirstXmmOffset(a) + 8 * XmmCount(a) }  // XmmCount * XMM_SIZE

  /** OUT_SIZE: the restore area popped at the end (eflags, eax, ecx, ebp, eip). */
  function OutSize(a: Arch): int { Words(a, 5) }

  /** The number of pointer-sized words in the context. */
  function SlotCount(a: Arch): nat
  {
    4 + GprCount(a) + 2 + XmmWords(a)
  }

  /** The index of a field's first word in the context. */
  function Slot(a: Arch, f: Field): nat
  {
    match f
    case ProbeFunction => 0
    case Arg => 1
    case InitializeStackFunction => 2
    case InitializeStackArg => 3
    case Gpr(n) => 4 + n
    case Eip => 4 + GprCount(a)
    case Eflags => 5 + GprCount(a)
    case XmmLane(n, lane) => 6 + GprCount(a) + (if a == X86 then 2 * n else n) + lane
  }

  function FirstXmmSlot(a: Arch): nat { 6 + GprCount(a) }

  /** The field whose word sits at index i of the context. */
  function FieldAt(a: Arch, i: nat): (f: Field)
    requires i < SlotCount(a)
    ensures ValidField(a, f)
  {
    if i == 0 then ProbeFunction
    else if i == 1 then Arg
    else if i == 2 then InitializeStackFunction
    else if i == 3 then InitializeStackArg
    else if i < 4 + GprCount(a) then Gpr(i - 4)
    else if i == 4 + GprCount(a) then Eip
    else if i == 5 + GprCount(a) then Eflags
    else if a == X86 then XmmLane((i - FirstXmmSlot(a)) / 2, (i - FirstXmmSlot(a)) % 2)
    else XmmLane(i - FirstXmmSlot(a), 0)
  }

  /** The numeric layout of both variants: PROBE_SIZE, OUT_SIZE and the first XMM offset. */
  lemma ConcreteLayout()
    ensures ProbeSize(X86) == 120 && OutSize(X86) == 20 && FirstXmmOffset(X86) == 56
    ensures ProbeSize(X86_64) == 304 && OutSize(X86_64) == 40 && FirstXmmOffset(X86_64) == 176
  {
  }

  /** Every field's offset is its word index times the pointer size, and lies inside the context. */
  lemma OffsetIsSlot(a: Arch, f: Field)
    requires ValidField(a, f)
    ensures Offset(a, f) == Words(a, Slot(a, f))
    ensures Slot(a, f) < SlotCount(a)
    ensures 0 <= Offset(a, f) && Offset(a, f) + PtrSize(a) <= ProbeSize(a)
  {
  }

  /** Every field is pointer-aligned within the context. */
  lemma OffsetAligned(a: Arch, f: Field)
    requires ValidField(a, f)
    ensures Offset(a, f) % PtrSize(a) == 0
  {
  }

  /** PROBE_SIZE is a whole number of words: the context is exactly SlotCount words long. */
  lemma ProbeSizeIsSlots(a: Arch)
    ensures ProbeSize(a) == Words(a, SlotCount(a))
  {
  }

  /**
   * PROBE_SIZE is not itself a multiple of 32; only the sum with OUT_SIZE is
   * rounded (down) by the trampoline.
   */
  lemma ProbeSizeModulo32(a: Arch)
    ensures ProbeSize(a) % 32 == 24 || ProbeSize(a) % 32 == 16
  {
  }

  /** The XMM block starts on an 8-byte boundary (the compile-time check on XMM0). */
  lemma Xmm0Aligned(a: Arch)
    ensures Offset(a, XmmLane(0, 0)) % 8 == 0
    ensures Offset(a, XmmLane(0, 0)) == FirstXmmOffset(a)
  {
  }

  /** Slot and FieldAt are inverse: the fields tile the context word by word, with no gaps. */
  lemma SlotFieldAt(a: Arch, i: nat)
    requires i < SlotCount(a)
    ensures Slot(a, FieldAt(a, i)) == i
  {
  }

  lemma FieldAtSlot(a: Arch, f: Field)
    requires ValidField(a, f)
    ensures Slot(a, f) < SlotCount(a) && FieldAt(a, Slot(a, f)) == f
  {
  }

  /** Distinct fields have distinct offsets. */
  lemma {:induction false} OffsetsDistinct(a: Arch, f: Field, g: Field)
    requires ValidField(a, f) && ValidField(a, g) && f != g
    ensures Offset(a, f) != Offset(a, g)
  {
    FieldAtSlot(a, f);
    FieldAtSlot(a, g);
    OffsetIsSlot(a, f);
    OffsetIsSlot(a, g);
  }

  /**
   * The order of the record: the four header words, then the GPRs, then EIP
   * and EFLAGS, then the XMM slots.
   */
  lemma FieldOrder(a: Arch, n: nat, x: nat, lane: nat)
    requires n < GprCount(a) && x < XmmCount(a) && lane < XmmLanes(a)
    ensures Offset(a, ProbeFunction) < Offset(a, Arg) < Offset(a, InitializeStackFunction)
    ensures Offset(a, InitializeStackFunction) < Offset(a, InitializeStackArg) < Offset(a, Gpr(0))
    ensures Offset(a, Gpr(n)) < Offset(a, Eip) < Offset(a, Eflags) < Offset(a, XmmLane(0, 0))
    ensures Offset(a, XmmLane(0, 0)) <= Offset(a, XmmLane(x, lane))
    ensures Offset(a, XmmLane(x, lane)) + PtrSize(a) <= ProbeSize(a)
    ensures Offset(a, XmmLane(XmmCount(a) - 1, 0)) + XMM_SIZE == ProbeSize(a)
  {
  }
}

=== FILE: probe_machine.dfy ===
/**
 * The abstract x86 machine the probe trampoline runs on: a register file and
 * a word-granular memory keyed by byte address. Only the instructions the
 * trampoline and the emitted probe sequence use are given a meaning.
 */
module ProbeMachine {
  import opened ProbeLayout

  /** A machine word. Integers are unbounded: 32/64-bit wrap-around is not modelled. */
  type Word = int

  /** Memory: one word per byte address that was ever stored to; every other address reads as 0. */
  type Memory = map<int, Word>

  function Load(mem: Memory, addr: int): Word
  {
    if addr in mem then mem[addr] else 0
  }

  /**
   * The registers: the GPRs by number (ESP is the stack pointer), the low 8
   * bytes of each XMM register as XmmLanes word-sized lanes, EFLAGS as an
   * opaque word and the instruction pointer.
   */
  datatype Cpu = Cpu(gprs: seq<Word>, xmms: seq<Word>, eflags: Word, eip: Word)

  predicate CpuShape(a: Arch, c: Cpu)
  {
    |c.gprs| == GprCount(a) && |c.xmms| == XmmWords(a)
  }

  datatype Machine = Machine(cpu: Cpu, mem: Memory)

  function Sp(m: Machine): Word
    requires |m.cpu.gprs| > ESP
  {
    m.cpu.gprs[ESP]
  }

  /** `and $~0x1f`: clear the low five bits (two's complement), i.e. round down to a multiple of 32. */
  function AlignDown32(x: int): int
  {
    x - x % 32
  }

  lemma AlignDown32Bounds(x: int)
    ensures AlignDown32(x) % 32 == 0
    ensures x - 32 < AlignDown32(x) <= x
  {
  }

  /** The pointer-sized words of a context block at `base`, in slot order. */
  function ContextAt(a: Arch, mem: Memory, base: int): (w: seq<Word>)
    ensures |w| == SlotCount(a)
  {
    seq(SlotCount(a), i => Load(mem, base + Words(a, i)))
  }

  /** Registers a called C function may leave changed (cdecl on x86, System V on x86_64). */
  predicate CallerSaved(a: Arch, n: nat)
  {
    n == EAX || n == ECX || n == EDX ||
    (a == X86_64 && (n == ESI || n == EDI || (R8 <= n < R8 + 4)))
  }

  /** A store outside a context block leaves the block's words alone. */
  lemma StoreOutsideContext(a: Arch, mem: Memory, base: int, addr: int, v: Word)
    requires addr < base || base + ProbeSize(a) <= addr
    ensures ContextAt(a, mem[addr := v], base) == ContextAt(a, mem, base)
  {
    ProbeSizeIsSlots(a);
    assert forall i :: 0 <= i < SlotCount(a) ==> base + Words(a, i) < base + ProbeSize(a);
  }

  /** One word stored into field `f` of the context block at `base`. */
  function StoreField(a: Arch, mem: Memory, base: int, f: Field, v: Word): (mem': Memory)
    requires ValidField(a, f)
    ensures Load(mem', base + Offset(a, f)) == v
    ensures forall addr {:trigger Load(mem', addr)} :: addr != base + Offset(a, f) ==> Load(mem', addr) == Load(mem, addr)
    ensures forall addr {:trigger Load(mem', addr)} :: !(base <= addr < base + ProbeSize(a)) ==> Load(mem', addr) == Load(mem, addr)
    ensures ContextAt(a, mem', base) == ContextAt(a, mem, base)[Slot(a, f) := v]
  {
    OffsetIsSlot(a, f);
    mem[base + Offset(a, f) := v]
  }

  /**
   * Stores `values` in consecutive words starting at word `first` of the
   * block at `base` (the trampoline's unrolled runs of moves into the context).
   */
  method StoreWords(a: Arch, mem: Memory, base: int, first: nat, values: seq<Word>) returns (mem': Memory)
    ensures forall j :: 0 <= j < |values| ==> Load(mem', base + Words(a, first + j)) == values[j]
    ensures forall addr {:trigger Load(mem', addr)} :: addr < base + Words(a, first) || base + Words(a, first + |values|) <= addr ==>
      Load(mem', addr) == Load(mem, addr)
    ensures first + |values| <= SlotCount(a) ==>
      forall i :: 0 <= i < SlotCount(a) ==>
        ContextAt(a, mem', base)[i] == if first <= i < first + |values| then values[i - first] else ContextAt(a, mem, base)[i]
  {
    mem' := mem;
    var j := 0;
    while j < |values|
      invariant 0 <= j <= |values|
      invariant forall k :: 0 <= k < j ==> Load(mem', base + Words(a, first + k)) == values[k]
      invariant forall addr :: addr < base + Words(a, first) || base + Words(a, first + j) <= addr ==>
        Load(mem', addr) == Load(mem, addr)
    {
      mem' := mem'[base + Words(a, first + j) := values[j]];
      j := j + 1;
    }
  }

  /** Reads `count` consecutive words starting at word `first` of the block at `base` (the unrolled runs of moves out of the context). */
  method LoadWords(a: Arch, mem: Memory, base: int, first: nat, count: nat) returns (values: seq<Word>)
    ensures |values| == count
    ensures forall j :: 0 <= j < count ==> values[j] == Load(mem, base + Words(a, first + j))
    ensures first + count <= SlotCount(a) ==> values == ContextAt(a, mem, base)[first..first + count]
  {
    values := [];
    while |values| < count
      invariant |values| <= count
      invariant forall j :: 0 <= j < |values| ==> values[j] == Load(mem, base + Words(a, first + j))
    {
      values := values + [Load(mem, base + Words(a, first + |values|))];
    }
  }
}

=== FILE: probe_trampoline.dfy ===
/**
 * ctiMasmProbeTrampoline, both variants: capture every register into a
 * 32-byte aligned context below the stack, call the probe function, move the
 * context out of the way when the requested stack pointer would overlap it,
 * call the optional stack initializer, then restore every register and resume
 * through a five-word restore area popped in the order eflags, eax, ecx, ebp,
 * eip.
 *
 * The called functions are modelled by their effect on the context words
 * (a `Callback`). A call also leaves every register the calling convention
 * does not preserve, and EFLAGS, holding `clobber`; arithmetic leaves EFLAGS
 * holding `clobber` too. The resumed state does not depend on that value.
 */
module ProbeTrampoline {
  import opened ProbeLayout
  import opened ProbeMachine

  /** What a called function does to the context it is handed. */
  type Callback = seq<Word> -> seq<Word>

  /** A call the trampoline made: the function's address and the context pointer it passed. */
  datatype Call = Call(target: Word, context: int)

  /** A callback writes the fixed-size record in place: it cannot change its size. */
  ghost predicate KeepsSize(a: Arch, cb: Callback)
  {
    forall w: seq<Word> :: |w| == SlotCount(a) ==> |cb(w)| == SlotCount(a)
  }

  /** The initializer must not move the requested stack pointer again. */
  ghost predicate KeepsStackPointer(a: Arch, cb: Callback)
  {
    KeepsSize(a, cb) &&
    forall w: seq<Word> :: |w| == SlotCount(a) ==> cb(w)[Slot(a, Gpr(ESP))] == w[Slot(a, Gpr(ESP))]
  }

  /** Bytes the trampoline reserves below the stack: the context plus the restore area. */
  function Reserve(a: Arch): int { ProbeSize(a) + OutSize(a) }

  /**
   * Where the context is built: `sp` is the stack pointer at the trampoline's
   * entry; after pushing the flags, PROBE_SIZE + OUT_SIZE are subtracted and
   * the result is rounded down to 32 bytes.
   */
  function EntryContext(a: Arch, sp: int): (c: int)
    ensures c + Reserve(a) <= sp - PtrSize(a)
  {
    AlignDown32(sp - PtrSize(a) - Reserve(a))
  }

  lemma EntryContextBounds(a: Arch, sp: int)
    ensures EntryContext(a, sp) % 32 == 0
    ensures EntryContext(a, sp) + Reserve(a) <= sp - PtrSize(a)
    ensures sp - PtrSize(a) - Reserve(a) - 32 < EntryContext(a, sp)
  {
    AlignDown32Bounds(sp - PtrSize(a) - Reserve(a));
  }

  /** The relocation test (a signed compare, here on unbounded integers). */
  predicate NeedsRelocation(a: Arch, context: int, requestedSp: int): (r: bool)
    ensures !r ==> context + ProbeSize(a) + OutSize(a) <= requestedSp
  {
    requestedSp < context + Reserve(a)
  }

  /** The context the trampoline restores from: the original one, or its relocated copy. */
  function SafeContext(a: Arch, context: int, requestedSp: int): (c: int)
    ensures !NeedsRelocation(a, context, requestedSp) ==> c == context
    ensures NeedsRelocation(a, context, requestedSp) ==> c + Reserve(a) <= requestedSp
  {
    if NeedsRelocation(a, context, requestedSp) then AlignDown32(requestedSp - Reserve(a)) else context
  }

  /**
   * After the safety check the context and the restore area lie wholly below
   * the requested stack pointer; a relocated context is 32-byte aligned and
   * lies strictly below the old one, so the ascending copy never reads a word
   * it has already overwritten.
   */
  lemma SafeContextBelowRequestedSp(a: Arch, context: int, requestedSp: int)
    ensures SafeContext(a, context, requestedSp) + Reserve(a) <= requestedSp
    ensures NeedsRelocation(a, context, requestedSp) ==>
      SafeContext(a, context, requestedSp) % 32 == 0 &&
      SafeContext(a, context, requestedSp) < context &&
      requestedSp - Reserve(a) - 32 < SafeContext(a, context, requestedSp)
    ensures !NeedsRelocation(a, context, requestedSp) ==> SafeContext(a, context, requestedSp) == context
  {
    AlignDown32Bounds(requestedSp - Reserve(a));
  }

  /**
   * The restore area (requested sp - 5 words .. requested sp) and a safe
   * context never share a byte.
   */
  lemma {:induction false} RestoreAreaDisjoint(a: Arch, context: int, requestedSp: int)
    ensures var safe := SafeContext(a, context, requestedSp);
      forall i, k :: 0 <= i < SlotCount(a) && 0 <= k < 5 ==>
        safe + Words(a, i) + PtrSize(a) <= requestedSp - OutSize(a) + Words(a, k)
  {
    SafeContextBelowRequestedSp(a, context, requestedSp);
    ProbeSizeIsSlots(a);
  }

  /**
   * The context as captured, for a machine `m` at the trampoline's entry
   * whose stack holds (from the stack pointer up) the return address, the
   * probe function, its argument, the saved eax and the saved esp:
   * the probe function and its argument, a null initializeStackFunction, an
   * initializeStackArg that keeps whatever the stack held there, the GPRs
   * with eax and esp taken from the stack, the return address as eip, the
   * flags, and the XMM lanes.
   */
  function Captured(a: Arch, m: Machine): (w: seq<Word>)
    requires CpuShape(a, m.cpu)
    ensures |w| == SlotCount(a)
  {
    var sp := Sp(m);
    CapturedRecord(m.cpu.eflags, Load(m.mem, sp), Load(m.mem, sp + Words(a, 1)), Load(m.mem, sp + Words(a, 2)),
                   Load(m.mem, sp + Words(a, 3)), Load(m.mem, sp + Words(a, 4)),
                   ContextAt(a, m.mem, EntryContext(a, sp))[Slot(a, InitializeStackArg)], m.cpu.gprs, m.cpu.xmms)
  }

  /**
   * The captured record from its parts: the flags, the return address, the
   * probe function and its argument, the saved eax and esp, the stale
   * initializeStackArg, the other registers.
   */
  function CapturedRecord(flags: Word, ret: Word, fn: Word, arg: Word, savedEax: Word, savedEsp: Word, stale: Word,
                          gprs: seq<Word>, xmms: seq<Word>): (w: seq<Word>)
    requires |gprs| > ESP
    ensures |w| == 6 + |gprs| + |xmms|
  {
    [fn, arg, 0, stale] + gprs[EAX := savedEax][ESP := savedEsp] + [ret, flags] + xmms
  }

  /**
   * Field by field, the captured record: the six stack words land in the
   * probeFunction, arg, EAX, ESP, EIP and EFLAGS slots, initializeStackFunction
   * is null, every other GPR and every XMM lane is the register's own value.
   */
  lemma {:induction false} CapturedRecordFields(a: Arch, flags: Word, ret: Word, fn: Word, arg: Word, savedEax: Word, savedEsp: Word,
                                                stale: Word, gprs: seq<Word>, xmms: seq<Word>)
    requires |gprs| == GprCount(a) && |xmms| == XmmWords(a)
    ensures var w := CapturedRecord(flags, ret, fn, arg, savedEax, savedEsp, stale, gprs, xmms);
      |w| == SlotCount(a) &&
      w[Slot(a, ProbeFunction)] == fn && w[Slot(a, Arg)] == arg &&
      w[Slot(a, InitializeStackFunction)] == 0 && w[Slot(a, InitializeStackArg)] == stale &&
      w[Slot(a, Gpr(EAX))] == savedEax && w[Slot(a, Gpr(ESP))] == savedEsp &&
      w[Slot(a, Eip)] == ret && w[Slot(a, Eflags)] == flags &&
      (forall n :: 0 <= n < GprCount(a) && n != EAX && n != ESP ==> w[Slot(a, Gpr(n))] == gprs[n]) &&
      (forall j :: 0 <= j < XmmWords(a) ==> w[FirstXmmSlot(a) + j] == xmms[j])
  {
    var w := CapturedRecord(flags, ret, fn, arg, savedEax, savedEsp, stale, gprs, xmms);
    var g := gprs[EAX := savedEax][ESP := savedEsp];
    assert w == [fn, arg, 0, stale] + g + [ret, flags] + xmms;
    forall n | 0 <= n < GprCount(a)
      ensures w[Slot(a, Gpr(n))] == g[n]
    {
    }
    forall j | 0 <= j < XmmWords(a)
      ensures w[FirstXmmSlot(a) + j] == xmms[j]
    {
    }
  }

  /**
   * Resuming from a record that nobody changed gives back the registers it
   * was captured from, with eax and esp the saved values and eip the return
   * address.
   */
  lemma {:induction false} ResumeCapturedRecord(a: Arch, flags: Word, ret: Word, fn: Word, arg: Word, savedEax: Word, savedEsp: Word,
                                                stale: Word, gprs: seq<Word>, xmms: seq<Word>)
    requires |gprs| == GprCount(a) && |xmms| == XmmWords(a)
    ensures ResumedCpu(a, CapturedRecord(flags, ret, fn, arg, savedEax, savedEsp, stale, gprs, xmms)) ==
      Cpu(gprs[EAX := savedEax][ESP := savedEsp], xmms, flags, ret)
  {
    var w := CapturedRecord(flags, ret, fn, arg, savedEax, savedEsp, stale, gprs, xmms);
    CapturedRecordFields(a, flags, ret, fn, arg, savedEax, savedEsp, stale, gprs, xmms);
    var c := ResumedCpu(a, w);
    assert c.gprs == gprs[EAX := savedEax][ESP := savedEsp];
    assert c.xmms == xmms;
  }

  /** The registers the trampoline resumes with, read from the final context words. */
  function ResumedCpu(a: Arch, w: seq<Word>): (c: Cpu)
    requires |w| == SlotCount(a)
    ensures CpuShape(a, c)
    ensures forall n :: 0 <= n < GprCount(a) ==> c.gprs[n] == w[Slot(a, Gpr(n))]
    ensures forall j :: 0 <= j < |c.xmms| ==> c.xmms[j] == w[FirstXmmSlot(a) + j]
    ensures c.eflags == w[Slot(a, Eflags)] && c.eip == w[Slot(a, Eip)]
  {
    Cpu(seq(GprCount(a), n requires 0 <= n < GprCount(a) => w[Slot(a, Gpr(n))]),
        seq(XmmWords(a), j requires 0 <= j < XmmWords(a) => w[FirstXmmSlot(a) + j]),
        w[Slot(a, Eflags)],
        w[Slot(a, Eip)])
  }

  /** The five words of a restore area at `area`, in pop order. */
  function RestoreAreaAt(a: Arch, mem: Memory, area: int): (r: seq<Word>)
    ensures |r| == 5
  {
    [Load(mem, area + Words(a, 0)), Load(mem, area + Words(a, 1)), Load(mem, area + Words(a, 2)),
     Load(mem, area + Words(a, 3)), Load(mem, area + Words(a, 4))]
  }

  /**
   * Five stores at `area`, one per word in pop order, leave those five words
   * there, leave every other address alone and so leave a context block
   * below the area alone.
   */
  lemma FiveStores(a: Arch, mem: Memory, area: int, base: int, v0: Word, v1: Word, v2: Word, v3: Word, v4: Word)
    requires base + ProbeSize(a) <= area
    ensures var mem' := mem[area + Words(a, 0) := v0][area + Words(a, 1) := v1][area + Words(a, 2) := v2]
                           [area + Words(a, 3) := v3][area + Words(a, 4) := v4];
      RestoreAreaAt(a, mem', area) == [v0, v1, v2, v3, v4] &&
      (forall addr {:trigger Load(mem', addr)} :: !(area <= addr < area + OutSize(a)) ==> Load(mem', addr) == Load(mem, addr)) &&
      ContextAt(a, mem', base) == ContextAt(a, mem, base)
  {
    ProbeSizeIsSlots(a);
    assert forall i :: 0 <= i < SlotCount(a) ==> base + Words(a, i) < area;
  }

  /** What the restore area holds for a context: eflags, eax, ecx, ebp and eip, the order they are popped in. */
  function PopValues(a: Arch, w: seq<Word>): (r: seq<Word>)
    requires |w| == SlotCount(a)
    ensures |r| == 5
  {
    [w[Slot(a, Eflags)], w[Slot(a, Gpr(EAX))], w[Slot(a, Gpr(ECX))], w[Slot(a, Gpr(EBP))], w[Slot(a, Eip)]]
  }

  /**
   * The effect of a call on the registers it does not preserve: one value,
   * `clobber`, stands for whatever the callee leaves in each of them. The
   * trampoline reloads every such register from the context before reading
   * it, but the proofs are stated for this single value.
   */
  function ClobberCall(a: Arch, c: Cpu, clobber: Word): (c': Cpu)
    requires CpuShape(a, c)
    ensures CpuShape(a, c')
  {
    Cpu(seq(|c.gprs|, n requires 0 <= n < |c.gprs| => if CallerSaved(a, n) then clobber else c.gprs[n]),
        seq(|c.xmms|, _ => clobber),
        clobber, c.eip)
  }

  /**
   * Entry: push the flags, keep the old stack pointer in eax, reserve
   * PROBE_SIZE + OUT_SIZE bytes rounded down to 32, save ebp in the new
   * context and point ebp at it.
   */
  method Enter(a: Arch, m: Machine, clobber: Word) returns (m': Machine)
    requires CpuShape(a, m.cpu)
    ensures var ctx := EntryContext(a, Sp(m));
      m'.cpu == m.cpu.(gprs := m.cpu.gprs[EAX := Sp(m) - PtrSize(a)][ESP := ctx][EBP := ctx], eflags := clobber) &&
      ContextAt(a, m'.mem, ctx) == ContextAt(a, m.mem, ctx)[Slot(a, Gpr(EBP)) := m.cpu.gprs[EBP]] &&
      Load(m'.mem, Sp(m) - PtrSize(a)) == m.cpu.eflags
    ensures forall addr {:trigger Load(m'.mem, addr)} :: addr != Sp(m) - PtrSize(a) && !(EntryContext(a, Sp(m)) <= addr < EntryContext(a, Sp(m)) + ProbeSize(a)) ==>
      Load(m'.mem, addr) == Load(m.mem, addr)
  {
    var gprs, eflags, mem := m.cpu.gprs, m.cpu.eflags, m.mem;
    EntryContextBounds(a, Sp(m));
    ProbeSizeIsSlots(a);
    // pushf
    gprs := gprs[ESP := gprs[ESP] - PtrSize(a)];
    mem := mem[gprs[ESP] := eflags];
    // mov esp, eax; sub $(PROBE_SIZE + OUT_SIZE), esp; and $~0x1f, esp
    gprs := gprs[EAX := gprs[ESP]];
    gprs := gprs[ESP := gprs[ESP] - Reserve(a)];
    gprs := gprs[ESP := AlignDown32(gprs[ESP])];
    eflags := clobber;
    // mov ebp, EBP(esp); mov esp, ebp
    mem := StoreField(a, mem, gprs[ESP], Gpr(EBP), gprs[EBP]);
    gprs := gprs[EBP := gprs[ESP]];
    m' := Machine(m.cpu.(gprs := gprs, eflags := eflags), mem);
  }

  /** Saves ecx, edx, ebx, esi and edi into the context at ebp. */
  method SaveScratchRegisters(a: Arch, m: Machine) returns (m': Machine)
    requires CpuShape(a, m.cpu)
    ensures var ctx := m.cpu.gprs[EBP]; var g := m.cpu.gprs;
      m'.cpu == m.cpu &&
      ContextAt(a, m'.mem, ctx) == ContextAt(a, m.mem, ctx)[Slot(a, Gpr(ECX)) := g[ECX]][Slot(a, Gpr(EDX)) := g[EDX]]
        [Slot(a, Gpr(EBX)) := g[EBX]][Slot(a, Gpr(ESI)) := g[ESI]][Slot(a, Gpr(EDI)) := g[EDI]]
    ensures forall addr {:trigger Load(m'.mem, addr)} :: !(m.cpu.gprs[EBP] <= addr < m.cpu.gprs[EBP] + ProbeSize(a)) ==> Load(m'.mem, addr) == Load(m.mem, addr)
  {
    var gprs, mem := m.cpu.gprs, m.mem;
    var ctx := gprs[EBP];
    mem := StoreField(a, mem, ctx, Gpr(ECX), gprs[ECX]);
    mem := StoreField(a, mem, ctx, Gpr(EDX), gprs[EDX]);
    mem := StoreField(a, mem, ctx, Gpr(EBX), gprs[EBX]);
    mem := StoreField(a, mem, ctx, Gpr(ESI), gprs[ESI]);
    mem := StoreField(a, mem, ctx, Gpr(EDI), gprs[EDI]);
    m' := Machine(m.cpu, mem);
  }

  /**
   * Copies the six words the flags push and the emitted probe sequence left
   * on the stack at eax (flags, return address, probe function, argument,
   * saved eax, saved esp) into their fields, one at a time through ecx.
   */
  /** One of the six: `movl k*PTR_SIZE(%eax), %ecx; movl %ecx, OFFSET(%ebp)`. */
  method MoveStackWord(a: Arch, m: Machine, k: nat, f: Field, ghost ctx: int, ghost s: int) returns (m': Machine)
    requires CpuShape(a, m.cpu) && ValidField(a, f) && m.cpu.gprs[EBP] == ctx && m.cpu.gprs[EAX] == s
    requires ctx + ProbeSize(a) <= s
    ensures var v := Load(m.mem, s + Words(a, k));
      m'.cpu == m.cpu.(gprs := m.cpu.gprs[ECX := v]) &&
      ContextAt(a, m'.mem, ctx) == ContextAt(a, m.mem, ctx)[Slot(a, f) := v]
    ensures forall addr {:trigger Load(m'.mem, addr)} :: !(ctx <= addr < ctx + ProbeSize(a)) ==> Load(m'.mem, addr) == Load(m.mem, addr)
  {
    var gprs := m.cpu.gprs;
    gprs := gprs[ECX := Load(m.mem, gprs[EAX] + Words(a, k))];
    var mem := StoreField(a, m.mem, gprs[EBP], f, gprs[ECX]);
    m' := Machine(m.cpu.(gprs := gprs), mem);
  }

  /**
   * Copies the six words the flags push and the emitted probe sequence left
   * on the stack at eax (flags, return address, probe function, argument,
   * saved eax, saved esp) into their fields, one at a time through ecx.
   */
  method SaveStackWords(a: Arch, m: Machine, ghost ctx: int, ghost s: int) returns (m': Machine)
    requires CpuShape(a, m.cpu) && m.cpu.gprs[EBP] == ctx && m.cpu.gprs[EAX] == s
    requires ctx + ProbeSize(a) <= s
    ensures m'.cpu == m.cpu.(gprs := m.cpu.gprs[ECX := Load(m.mem, s + Words(a, 5))])
    ensures ContextAt(a, m'.mem, ctx) == ContextAt(a, m.mem, ctx)
        [Slot(a, Eflags) := Load(m.mem, s)][Slot(a, Eip) := Load(m.mem, s + Words(a, 1))]
        [Slot(a, ProbeFunction) := Load(m.mem, s + Words(a, 2))][Slot(a, Arg) := Load(m.mem, s + Words(a, 3))]
        [Slot(a, Gpr(EAX)) := Load(m.mem, s + Words(a, 4))][Slot(a, Gpr(ESP)) := Load(m.mem, s + Words(a, 5))]
    ensures forall addr {:trigger Load(m'.mem, addr)} :: !(ctx <= addr < ctx + ProbeSize(a)) ==> Load(m'.mem, addr) == Load(m.mem, addr)
  {
    m' := MoveStackWord(a, m, 0, Eflags, ctx, s);
    m' := MoveStackWord(a, m', 1, Eip, ctx, s);
    m' := MoveStackWord(a, m', 2, ProbeFunction, ctx, s);
    m' := MoveStackWord(a, m', 3, Arg, ctx, s);
    m' := MoveStackWord(a, m', 4, Gpr(EAX), ctx, s);
    m' := MoveStackWord(a, m', 5, Gpr(ESP), ctx, s);
  }

  /**
   * Saves r8-r15 (x86_64 only) and the low 8 bytes of every XMM register,
   * then zeroes eax and stores it as initializeStackFunction.
   */
  method SaveWideRegisters(a: Arch, m: Machine, clobber: Word) returns (m': Machine)
    requires CpuShape(a, m.cpu)
    ensures var ctx := m.cpu.gprs[EBP]; var w := ContextAt(a, m.mem, ctx); var w' := ContextAt(a, m'.mem, ctx);
      m'.cpu == m.cpu.(gprs := m.cpu.gprs[EAX := 0], eflags := clobber) &&
      w'[..FirstXmmSlot(a)] == (if a == X86_64 then w[..Slot(a, Gpr(R8))] + m.cpu.gprs[R8..] + w[Slot(a, Eip)..FirstXmmSlot(a)] else w[..FirstXmmSlot(a)])
        [Slot(a, InitializeStackFunction) := 0] &&
      w'[FirstXmmSlot(a)..] == m.cpu.xmms
    ensures forall addr {:trigger Load(m'.mem, addr)} :: !(m.cpu.gprs[EBP] <= addr < m.cpu.gprs[EBP] + ProbeSize(a)) ==> Load(m'.mem, addr) == Load(m.mem, addr)
  {
    var gprs, mem := m.cpu.gprs, m.mem;
    var ctx := gprs[EBP];
    ProbeSizeIsSlots(a);
    if a == X86_64 {
      mem := StoreWords(a, mem, ctx, Slot(a, Gpr(R8)), gprs[R8..]);
    }
    ghost var middle := mem;
    mem := StoreWords(a, mem, ctx, FirstXmmSlot(a), m.cpu.xmms);
    // xor eax, eax; mov eax, INIT_STACK_FUNCTION(ebp)
    gprs := gprs[EAX := 0];
    mem := StoreField(a, mem, ctx, InitializeStackFunction, gprs[EAX]);
    m' := Machine(m.cpu.(gprs := gprs, eflags := clobber), mem);
  }

  /**
   * The prologue: the flags push and the context allocation (Enter), then
   * ecx, edx, ebx, esi and edi saved into the new context.
   */
  method Prologue(a: Arch, m: Machine, clobber: Word) returns (m': Machine)
    requires CpuShape(a, m.cpu)
    ensures var ctx := EntryContext(a, Sp(m)); var g := m.cpu.gprs;
      m'.cpu == m.cpu.(gprs := g[EAX := Sp(m) - PtrSize(a)][ESP := ctx][EBP := ctx], eflags := clobber) &&
      ContextAt(a, m'.mem, ctx) == ContextAt(a, m.mem, ctx)[Slot(a, Gpr(EBP)) := g[EBP]]
        [Slot(a, Gpr(ECX)) := g[ECX]][Slot(a, Gpr(EDX)) := g[EDX]]
        [Slot(a, Gpr(EBX)) := g[EBX]][Slot(a, Gpr(ESI)) := g[ESI]][Slot(a, Gpr(EDI)) := g[EDI]] &&
      Load(m'.mem, Sp(m) - PtrSize(a)) == m.cpu.eflags
    ensures m'.cpu.gprs[R8..] == m.cpu.gprs[R8..]
    ensures var s := Sp(m) - PtrSize(a);
      Load(m'.mem, s + Words(a, 1)) == Load(m.mem, Sp(m)) &&
      Load(m'.mem, s + Words(a, 2)) == Load(m.mem, Sp(m) + Words(a, 1)) &&
      Load(m'.mem, s + Words(a, 3)) == Load(m.mem, Sp(m) + Words(a, 2)) &&
      Load(m'.mem, s + Words(a, 4)) == Load(m.mem, Sp(m) + Words(a, 3)) &&
      Load(m'.mem, s + Words(a, 5)) == Load(m.mem, Sp(m) + Words(a, 4))
    ensures forall addr {:trigger Load(m'.mem, addr)} :: addr != Sp(m) - PtrSize(a) && !(EntryContext(a, Sp(m)) <= addr < EntryContext(a, Sp(m)) + ProbeSize(a)) ==>
      Load(m'.mem, addr) == Load(m.mem, addr)
  {
    var m1 := Enter(a, m, clobber);
    EntryContextBounds(a, Sp(m));
    m' := SaveScratchRegisters(a, m1);
  }

  /** The GPR slots of `w` once r8-r15 (x86_64 only) are stored over them from `g`. */
  function WithHighGprs(a: Arch, w: seq<Word>, g: seq<Word>): (r: seq<Word>)
    requires |w| == SlotCount(a) && |g| == GprCount(a)
    ensures |r| == GprCount(a)
  {
    if a == X86_64 then w[Slot(a, Gpr(0))..Slot(a, Gpr(R8))] + g[R8..] else w[Slot(a, Gpr(0))..Slot(a, Eip)]
  }

  /**
   * The record phase: the six stack words at eax, then r8-r15, the XMM lanes
   * and a null initializeStackFunction. The context is then fully written:
   * the words read off the stack, the GPRs saved so far (r8-r15 from the
   * registers), the stale initializeStackArg and the XMM lanes.
   */
  method Record(a: Arch, m: Machine, clobber: Word, ghost ctx: int, ghost s: int) returns (m': Machine)
    requires CpuShape(a, m.cpu) && m.cpu.gprs[EBP] == ctx && m.cpu.gprs[EAX] == s
    requires ctx + ProbeSize(a) <= s
    ensures var mem := m.mem;
      m'.cpu == m.cpu.(gprs := m.cpu.gprs[ECX := Load(mem, s + Words(a, 5))][EAX := 0], eflags := clobber)
    ensures var mem := m.mem; var w := ContextAt(a, mem, ctx);
      ContextAt(a, m'.mem, ctx) ==
        [Load(mem, s + Words(a, 2)), Load(mem, s + Words(a, 3)), 0, w[Slot(a, InitializeStackArg)]] +
        WithHighGprs(a, w, m.cpu.gprs)[EAX := Load(mem, s + Words(a, 4))][ESP := Load(mem, s + Words(a, 5))] +
        [Load(mem, s + Words(a, 1)), Load(mem, s)] + m.cpu.xmms
    ensures forall addr {:trigger Load(m'.mem, addr)} :: !(ctx <= addr < ctx + ProbeSize(a)) ==> Load(m'.mem, addr) == Load(m.mem, addr)
  {
    var m3 := SaveStackWords(a, m, ctx, s);
    m' := SaveWideRegisters(a, m3, clobber);
    RecordAssembled(a, m.cpu.gprs, m.cpu.xmms, Load(m.mem, s), Load(m.mem, s + Words(a, 1)), Load(m.mem, s + Words(a, 2)),
                    Load(m.mem, s + Words(a, 3)), Load(m.mem, s + Words(a, 4)), Load(m.mem, s + Words(a, 5)),
                    ContextAt(a, m.mem, ctx), ContextAt(a, m3.mem, ctx), ContextAt(a, m'.mem, ctx));
  }

  /**
   * The context words after the six stack moves and after the wide
   * registers add up to the recorded block.
   */
  lemma RecordAssembled(a: Arch, g: seq<Word>, xmms: seq<Word>, flags: Word,
                        ret: Word, fn: Word, arg: Word, savedEax: Word, savedEsp: Word,
                        w: seq<Word>, w3: seq<Word>, w4: seq<Word>)
    requires |g| == GprCount(a) && |xmms| == XmmWords(a)
    requires |w| == |w3| == |w4| == SlotCount(a)
    requires w3 == w[Slot(a, Eflags) := flags][Slot(a, Eip) := ret][Slot(a, ProbeFunction) := fn]
                    [Slot(a, Arg) := arg][Slot(a, Gpr(EAX)) := savedEax][Slot(a, Gpr(ESP)) := savedEsp]
    requires w4[..FirstXmmSlot(a)] ==
      (if a == X86_64 then w3[..Slot(a, Gpr(R8))] + g[R8..] + w3[Slot(a, Eip)..FirstXmmSlot(a)] else w3[..FirstXmmSlot(a)])
        [Slot(a, InitializeStackFunction) := 0]
    requires w4[FirstXmmSlot(a)..] == xmms
    ensures w4 == [fn, arg, 0, w[Slot(a, InitializeStackArg)]] +
                  WithHighGprs(a, w, g)[EAX := savedEax][ESP := savedEsp] + [ret, flags] + xmms
  {
    var x := FirstXmmSlot(a);
    var c := [fn, arg, 0, w[Slot(a, InitializeStackArg)]] + WithHighGprs(a, w, g)[EAX := savedEax][ESP := savedEsp] + [ret, flags] + xmms;
    forall i | 0 <= i < x
      ensures w4[i] == c[i]
    {
      assert w4[i] == w4[..x][i];
    }
    forall i | x <= i < SlotCount(a)
      ensures w4[i] == c[i]
    {
      assert w4[i] == w4[x..][i - x];
    }
  }

  /**
   * The GPR slots saved by the prologue, with r8-r15 from the registers and
   * eax and esp overwritten, are the registers at entry with those two words.
   */
  lemma GprsAssembled(a: Arch, g: seq<Word>, g': seq<Word>, w0: seq<Word>, w2: seq<Word>, savedEax: Word, savedEsp: Word)
    requires |g| == |g'| == GprCount(a) && |w0| == |w2| == SlotCount(a)
    requires g'[R8..] == g[R8..]
    requires w2 == w0[Slot(a, Gpr(EBP)) := g[EBP]][Slot(a, Gpr(ECX)) := g[ECX]][Slot(a, Gpr(EDX)) := g[EDX]]
                     [Slot(a, Gpr(EBX)) := g[EBX]][Slot(a, Gpr(ESI)) := g[ESI]][Slot(a, Gpr(EDI)) := g[EDI]]
    ensures WithHighGprs(a, w2, g')[EAX := savedEax][ESP := savedEsp] == g[EAX := savedEax][ESP := savedEsp]
  {
    var r := WithHighGprs(a, w2, g')[EAX := savedEax][ESP := savedEsp];
    forall n | 0 <= n < GprCount(a)
      ensures r[n] == g[EAX := savedEax][ESP := savedEsp][n]
    {
      if n >= R8 {
        assert g'[n] == g'[R8..][n - R8];
      }
    }
  }

  /**
   * Entry and capture, in the trampoline's order. Only the pushed flags word
   * and the context are written.
   */
  method Capture(a: Arch, m: Machine, clobber: Word) returns (m': Machine)
    requires CpuShape(a, m.cpu)
    ensures CpuShape(a, m'.cpu)
    ensures m'.cpu.gprs[EBP] == EntryContext(a, Sp(m)) && Sp(m') == EntryContext(a, Sp(m))
    ensures ContextAt(a, m'.mem, EntryContext(a, Sp(m))) == Captured(a, m)
    ensures forall addr {:trigger Load(m'.mem, addr)} :: addr != Sp(m) - PtrSize(a) && !(EntryContext(a, Sp(m)) <= addr < EntryContext(a, Sp(m)) + ProbeSize(a)) ==>
      Load(m'.mem, addr) == Load(m.mem, addr)
  {
    var sp, ctx := Sp(m), EntryContext(a, Sp(m));
    var m2 := Prologue(a, m, clobber);
    var s := sp - PtrSize(a);
    m' := Record(a, m2, clobber, ctx, s);
    ghost var w0 := ContextAt(a, m.mem, ctx);
    ghost var p0, p1, p2 := Load(m2.mem, s), Load(m2.mem, s + Words(a, 1)), Load(m2.mem, s + Words(a, 2));
    ghost var p3, p4, p5 := Load(m2.mem, s + Words(a, 3)), Load(m2.mem, s + Words(a, 4)), Load(m2.mem, s + Words(a, 5));
    RecordOfEntry(a, m.cpu.gprs, m2.cpu.gprs, m.cpu.xmms, w0, ContextAt(a, m2.mem, ctx), ContextAt(a, m'.mem, ctx),
                  p0, p1, p2, p3, p4, p5, w0[Slot(a, InitializeStackArg)]);
    CapturedFromStack(a, m, p0, p1, p2, p3, p4, p5);
  }

  /** The captured record, from the six words the trampoline read back through eax. */
  lemma CapturedFromStack(a: Arch, m: Machine, p0: Word, p1: Word, p2: Word, p3: Word, p4: Word, p5: Word)
    requires CpuShape(a, m.cpu)
    requires p0 == m.cpu.eflags && p1 == Load(m.mem, Sp(m)) && p2 == Load(m.mem, Sp(m) + Words(a, 1))
    requires p3 == Load(m.mem, Sp(m) + Words(a, 2)) && p4 == Load(m.mem, Sp(m) + Words(a, 3))
    requires p5 == Load(m.mem, Sp(m) + Words(a, 4))
    ensures Captured(a, m) ==
      CapturedRecord(p0, p1, p2, p3, p4, p5, ContextAt(a, m.mem, EntryContext(a, Sp(m)))[Slot(a, InitializeStackArg)],
                     m.cpu.gprs, m.cpu.xmms)
  {
  }

  /**
   * The context after the prologue (`w2`, from `w0` at entry) and after the
   * record phase (`w4`) is the captured record: the six words read back
   * through eax (p0 to p5), the stale initializeStackArg, the GPRs at entry
   * with eax and esp replaced, and the XMM lanes.
   */
  lemma RecordOfEntry(a: Arch, g: seq<Word>, g': seq<Word>, xmms: seq<Word>, w0: seq<Word>, w2: seq<Word>, w4: seq<Word>,
                      p0: Word, p1: Word, p2: Word, p3: Word, p4: Word, p5: Word, stale: Word)
    requires |g| == |g'| == GprCount(a) && |xmms| == XmmWords(a) && |w0| == |w2| == SlotCount(a)
    requires g'[R8..] == g[R8..]
    requires w2 == w0[Slot(a, Gpr(EBP)) := g[EBP]][Slot(a, Gpr(ECX)) := g[ECX]][Slot(a, Gpr(EDX)) := g[EDX]]
                     [Slot(a, Gpr(EBX)) := g[EBX]][Slot(a, Gpr(ESI)) := g[ESI]][Slot(a, Gpr(EDI)) := g[EDI]]
    requires w0[Slot(a, InitializeStackArg)] == stale
    requires w4 == [p2, p3, 0, w2[Slot(a, InitializeStackArg)]] + WithHighGprs(a, w2, g')[EAX := p4][ESP := p5] + [p1, p0] + xmms
    ensures w4 == CapturedRecord(p0, p1, p2, p3, p4, p5, stale, g, xmms)
  {
    StaleArgKept(a, g, w0, w2);
    GprsAssembled(a, g, g', w0, w2, p4, p5);
  }

  /** The prologue's register saves leave initializeStackArg as it was. */
  lemma StaleArgKept(a: Arch, g: seq<Word>, w0: seq<Word>, w2: seq<Word>)
    requires |g| == GprCount(a) && |w0| == SlotCount(a)
    requires w2 == w0[Slot(a, Gpr(EBP)) := g[EBP]][Slot(a, Gpr(ECX)) := g[ECX]][Slot(a, Gpr(EDX)) := g[EDX]]
                     [Slot(a, Gpr(EBX)) := g[EBX]][Slot(a, Gpr(ESI)) := g[ESI]][Slot(a, Gpr(EDI)) := g[EDI]]
    ensures w2[Slot(a, InitializeStackArg)] == w0[Slot(a, InitializeStackArg)]
  {
  }

  /**
   * The call to the probe function, with the context pointer as its argument
   * (on the stack 32 bytes below on x86, in rdi on x86_64). The function
   * rewrites the context; ebp is callee-saved and survives the call.
   */
  method CallProbe(a: Arch, m: Machine, probe: Callback, clobber: Word) returns (m': Machine, call: Call)
    requires CpuShape(a, m.cpu) && KeepsSize(a, probe)
    requires Sp(m) <= m.cpu.gprs[EBP]
    ensures CpuShape(a, m'.cpu)
    ensures m'.cpu.gprs[EBP] == m.cpu.gprs[EBP]
    ensures Sp(m') == if a == X86 then Sp(m) - 32 else Sp(m)
    ensures call == Call(ContextAt(a, m.mem, m.cpu.gprs[EBP])[Slot(a, ProbeFunction)], m.cpu.gprs[EBP])
    ensures ContextAt(a, m'.mem, m.cpu.gprs[EBP]) == probe(ContextAt(a, m.mem, m.cpu.gprs[EBP]))
    ensures forall addr {:trigger Load(m'.mem, addr)} :: addr != Sp(m) - 32 && !(m.cpu.gprs[EBP] <= addr < m.cpu.gprs[EBP] + ProbeSize(a)) ==>
      Load(m'.mem, addr) == Load(m.mem, addr)
  {
    var cpu, mem := m.cpu, m.mem;
    var ctx := cpu.gprs[EBP];
    ProbeSizeIsSlots(a);
    OffsetIsSlot(a, ProbeFunction);
    if a == X86 {
      // subl $0x20, %esp; movl %ebp, 0(%esp)
      cpu := cpu.(gprs := cpu.gprs[ESP := cpu.gprs[ESP] - 32], eflags := clobber);
      StoreOutsideContext(a, mem, ctx, cpu.gprs[ESP], ctx);
      mem := mem[cpu.gprs[ESP] := ctx];
    } else {
      // movq %rbp, %rdi
      cpu := cpu.(gprs := cpu.gprs[EDI := ctx]);
    }
    // call *PROBE_FUNCTION(ebp)
    call := Call(Load(mem, ctx + Offset(a, ProbeFunction)), ctx);
    var before := ContextAt(a, mem, ctx);
    mem := StoreWords(a, mem, ctx, 0, probe(before));
    cpu := ClobberCall(a, cpu, clobber);
    m' := Machine(cpu, mem);
    assert ContextAt(a, mem, ctx) == probe(before);
  }

  /**
   * The relocation copy: PROBE_SIZE bytes, one word at a time in ascending
   * order, from the context at `src` to `dst` (eax is the byte offset, ecx
   * the size, edx the word in flight). The trampoline tests at the bottom of
   * the loop; PROBE_SIZE is positive, so testing first changes nothing. The
   * loop leaves eax at PROBE_SIZE and edx holding the context's last word,
   * which are returned as `offset` and `word`.
   */
  method CopyContext(a: Arch, mem: Memory, src: int, dst: int) returns (mem': Memory, offset: int, word: Word)
    requires dst < src
    ensures ContextAt(a, mem', dst) == ContextAt(a, mem, src)
    ensures forall addr {:trigger Load(mem', addr)} :: !(dst <= addr < dst + ProbeSize(a)) ==> Load(mem', addr) == Load(mem, addr)
    ensures offset == ProbeSize(a) && word == Load(mem, src + ProbeSize(a) - PtrSize(a))
  {
    ProbeSizeIsSlots(a);
    mem' := mem;
    offset, word := 0, 0;
    var size := ProbeSize(a);
    ghost var k := 0;
    while offset < size
      invariant 0 <= k <= SlotCount(a) && offset == Words(a, k)
      invariant forall j :: 0 <= j < k ==> Load(mem', dst + Words(a, j)) == Load(mem, src + Words(a, j))
      invariant forall addr :: !(dst <= addr < dst + offset) ==> Load(mem', addr) == Load(mem, addr)
      invariant 0 < k ==> word == Load(mem, src + offset - PtrSize(a))
      decreases size - offset
    {
      word := Load(mem', src + offset);
      mem' := mem'[dst + offset := word];
      offset := offset + PtrSize(a);
      k := k + 1;
    }
  }

  /**
   * Makes sure the context and the restore area lie wholly below the stack
   * pointer the probe asked for: when they do not, the context is copied to
   * the highest 32-byte aligned place that leaves room for both below that
   * stack pointer, and ebp follows it.
   */
  method EnsureSafeContext(a: Arch, m: Machine, clobber: Word) returns (m': Machine)
    requires CpuShape(a, m.cpu)
    ensures CpuShape(a, m'.cpu)
    ensures var ctx := m.cpu.gprs[EBP];
      var requested := ContextAt(a, m.mem, ctx)[Slot(a, Gpr(ESP))];
      m'.cpu.gprs[EBP] == SafeContext(a, ctx, requested) &&
      Sp(m') == (if NeedsRelocation(a, ctx, requested) then SafeContext(a, ctx, requested) else Sp(m)) &&
      (if NeedsRelocation(a, ctx, requested)
       then m'.cpu.gprs[EAX] == ProbeSize(a) && m'.cpu.gprs[ECX] == ProbeSize(a) &&
            m'.cpu.gprs[EDX] == Load(m.mem, ctx + ProbeSize(a) - PtrSize(a))
       else m'.cpu.gprs[EAX] == ctx + Reserve(a) && m'.cpu.gprs[ECX] == Reserve(a) && m'.cpu.gprs[EDX] == requested)
    ensures ContextAt(a, m'.mem, m'.cpu.gprs[EBP]) == ContextAt(a, m.mem, m.cpu.gprs[EBP])
    ensures forall addr {:trigger Load(m'.mem, addr)} :: !(m'.cpu.gprs[EBP] <= addr < m'.cpu.gprs[EBP] + ProbeSize(a)) ==>
      Load(m'.mem, addr) == Load(m.mem, addr)
  {
    var gprs, mem := m.cpu.gprs, m.mem;
    var ctx := gprs[EBP];
    OffsetIsSlot(a, Gpr(ESP));
    gprs := gprs[ECX := Reserve(a)];
    gprs := gprs[EAX := gprs[EBP]];
    gprs := gprs[EDX := Load(mem, gprs[EBP] + Offset(a, Gpr(ESP)))];
    gprs := gprs[EAX := gprs[EAX] + gprs[ECX]];
    // cmp eax, edx; jge safe
    if gprs[EDX] < gprs[EAX] {
      gprs := gprs[EDX := gprs[EDX] - gprs[ECX]];
      gprs := gprs[EDX := AlignDown32(gprs[EDX])];
      gprs := gprs[EAX := 0];
      gprs := gprs[ESP := gprs[EDX]];
      gprs := gprs[ECX := ProbeSize(a)];
      SafeContextBelowRequestedSp(a, ctx, ContextAt(a, mem, ctx)[Slot(a, Gpr(ESP))]);
      var offset, word;
      mem, offset, word := CopyContext(a, mem, gprs[EBP], gprs[ESP]);
      gprs := gprs[EAX := offset][EDX := word];
      gprs := gprs[EBP := gprs[ESP]];
    }
    m' := Machine(m.cpu.(gprs := gprs, eflags := clobber), mem);
  }

  /**
   * Calls initializeStackFunction, read from the (possibly relocated)
   * context, when it is not null; the probe function sets it when it wants
   * the stack below its requested stack pointer filled in.
   */
  method CallInitializer(a: Arch, m: Machine, init: Callback, clobber: Word) returns (m': Machine, calls: seq<Call>)
    requires CpuShape(a, m.cpu) && KeepsSize(a, init)
    requires Sp(m) <= m.cpu.gprs[EBP]
    ensures CpuShape(a, m'.cpu)
    ensures m'.cpu.gprs[EBP] == m.cpu.gprs[EBP]
    ensures var w := ContextAt(a, m.mem, m.cpu.gprs[EBP]);
      var f := w[Slot(a, InitializeStackFunction)];
      calls == InitializerCalls(a, w, m.cpu.gprs[EBP]) &&
      ContextAt(a, m'.mem, m.cpu.gprs[EBP]) == Initialized(a, w, init) &&
      Sp(m') == (if f != 0 && a == X86 then Sp(m) - 32 else Sp(m))
    ensures forall addr {:trigger Load(m'.mem, addr)} :: addr != Sp(m) - 32 && !(m.cpu.gprs[EBP] <= addr < m.cpu.gprs[EBP] + ProbeSize(a)) ==>
      Load(m'.mem, addr) == Load(m.mem, addr)
  {
    var cpu, mem := m.cpu, m.mem;
    var ctx := cpu.gprs[EBP];
    ProbeSizeIsSlots(a);
    OffsetIsSlot(a, InitializeStackFunction);
    // xor ecx, ecx; add INIT_STACK_FUNCTION(ebp), ecx; je restore
    cpu := cpu.(gprs := cpu.gprs[ECX := 0]);
    cpu := cpu.(gprs := cpu.gprs[ECX := cpu.gprs[ECX] + Load(mem, ctx + Offset(a, InitializeStackFunction))], eflags := clobber);
    if cpu.gprs[ECX] == 0 {
      calls := [];
    } else {
      if a == X86 {
        cpu := cpu.(gprs := cpu.gprs[ESP := cpu.gprs[ESP] - 32]);
        StoreOutsideContext(a, mem, ctx, cpu.gprs[ESP], ctx);
        mem := mem[cpu.gprs[ESP] := ctx];
      } else {
        cpu := cpu.(gprs := cpu.gprs[EDI := ctx]);
      }
      // call *ecx
      calls := [Call(cpu.gprs[ECX], ctx)];
      var before := ContextAt(a, mem, ctx);
      mem := StoreWords(a, mem, ctx, 0, init(before));
      cpu := ClobberCall(a, cpu, clobber);
      assert ContextAt(a, mem, ctx) == init(before);
    }
    m' := Machine(cpu, mem);
  }

  /**
   * Reloads edx, ebx, esi, edi, r8-r15 (x86_64) and the XMM lanes from the
   * context at ebp; eax, ecx, ebp and esp come back through the restore area.
   */
  method ReloadRegisters(a: Arch, m: Machine) returns (m': Machine)
    requires CpuShape(a, m.cpu)
    ensures var w := ContextAt(a, m.mem, m.cpu.gprs[EBP]);
      CpuShape(a, m'.cpu) && m'.mem == m.mem &&
      m'.cpu.eflags == m.cpu.eflags && m'.cpu.eip == m.cpu.eip &&
      m'.cpu.xmms == w[FirstXmmSlot(a)..] &&
      (forall n :: 0 <= n < GprCount(a) ==>
        m'.cpu.gprs[n] == if n == EAX || n == ECX || n == ESP || n == EBP then m.cpu.gprs[n] else w[Slot(a, Gpr(n))])
  {
    var gprs, mem := m.cpu.gprs, m.mem;
    var ctx := gprs[EBP];
    ProbeSizeIsSlots(a);
    OffsetIsSlot(a, Gpr(EDX)); OffsetIsSlot(a, Gpr(EBX)); OffsetIsSlot(a, Gpr(ESI)); OffsetIsSlot(a, Gpr(EDI));
    gprs := gprs[EDX := Load(mem, ctx + Offset(a, Gpr(EDX)))];
    gprs := gprs[EBX := Load(mem, ctx + Offset(a, Gpr(EBX)))];
    gprs := gprs[ESI := Load(mem, ctx + Offset(a, Gpr(ESI)))];
    gprs := gprs[EDI := Load(mem, ctx + Offset(a, Gpr(EDI)))];
    if a == X86_64 {
      var high := LoadWords(a, mem, ctx, Slot(a, Gpr(R8)), 8);
      gprs := gprs[..R8] + high;
    }
    var xmms := LoadWords(a, mem, ctx, FirstXmmSlot(a), XmmWords(a));
    m' := Machine(m.cpu.(gprs := gprs, xmms := xmms), mem);
  }

  /**
   * One of the five: `movl OFFSET(%ebp), %eax; movl %eax, k*PTR_SIZE(%ecx)`,
   * for a restore area at ecx above the context `w` at ebp.
   */
  method MoveRestoreWord(a: Arch, m: Machine, f: Field, k: nat, ghost w: seq<Word>) returns (m': Machine)
    requires CpuShape(a, m.cpu) && ValidField(a, f) && k < 5
    requires m.cpu.gprs[EBP] + ProbeSize(a) <= m.cpu.gprs[ECX]
    requires ContextAt(a, m.mem, m.cpu.gprs[EBP]) == w
    ensures m'.cpu == m.cpu.(gprs := m.cpu.gprs[EAX := w[Slot(a, f)]])
    ensures m'.mem == m.mem[m.cpu.gprs[ECX] + Words(a, k) := w[Slot(a, f)]]
    ensures ContextAt(a, m'.mem, m.cpu.gprs[EBP]) == w
  {
    var gprs := m.cpu.gprs;
    OffsetIsSlot(a, f);
    gprs := gprs[EAX := Load(m.mem, gprs[EBP] + Offset(a, f))];
    StoreOutsideContext(a, m.mem, gprs[EBP], gprs[ECX] + Words(a, k), gprs[EAX]);
    var mem := m.mem[gprs[ECX] + Words(a, k) := gprs[EAX]];
    m' := Machine(m.cpu.(gprs := gprs), mem);
  }

  /** The five moves, in pop order, from the context `w` at ebp to the restore area at ecx. */
  method CopyPopWords(a: Arch, m: Machine, area: int, ghost w: seq<Word>) returns (m': Machine)
    requires CpuShape(a, m.cpu) && m.cpu.gprs[ECX] == area
    requires m.cpu.gprs[EBP] + ProbeSize(a) <= area
    requires ContextAt(a, m.mem, m.cpu.gprs[EBP]) == w
    ensures m'.cpu == m.cpu.(gprs := m.cpu.gprs[EAX := w[Slot(a, Eip)]])
    ensures m'.mem == m.mem[area + Words(a, 0) := w[Slot(a, Eflags)]][area + Words(a, 1) := w[Slot(a, Gpr(EAX))]]
                           [area + Words(a, 2) := w[Slot(a, Gpr(ECX))]][area + Words(a, 3) := w[Slot(a, Gpr(EBP))]]
                           [area + Words(a, 4) := w[Slot(a, Eip)]]
  {
    var m1 := MoveRestoreWord(a, m, Eflags, 0, w);
    var m2 := MoveRestoreWord(a, m1, Gpr(EAX), 1, w);
    var m3 := MoveRestoreWord(a, m2, Gpr(ECX), 2, w);
    var m4 := MoveRestoreWord(a, m3, Gpr(EBP), 3, w);
    m' := MoveRestoreWord(a, m4, Eip, 4, w);
  }

  /**
   * Points ecx at the restore area, five words below the stack pointer the
   * context asks for, copies eflags, eax, ecx, ebp and eip there in pop
   * order, and moves the stack pointer to it.
   */
  method FillRestoreArea(a: Arch, m: Machine, clobber: Word) returns (m': Machine)
    requires CpuShape(a, m.cpu)
    requires m.cpu.gprs[EBP] + Reserve(a) <= ContextAt(a, m.mem, m.cpu.gprs[EBP])[Slot(a, Gpr(ESP))]
    ensures var w := ContextAt(a, m.mem, m.cpu.gprs[EBP]);
      var area := w[Slot(a, Gpr(ESP))] - OutSize(a);
      m'.cpu == m.cpu.(gprs := m.cpu.gprs[ECX := area][EAX := w[Slot(a, Eip)]][ESP := area], eflags := clobber)
    ensures ContextAt(a, m'.mem, m.cpu.gprs[EBP]) == ContextAt(a, m.mem, m.cpu.gprs[EBP])
    ensures var w := ContextAt(a, m.mem, m.cpu.gprs[EBP]);
      RestoreAreaAt(a, m'.mem, w[Slot(a, Gpr(ESP))] - OutSize(a)) == PopValues(a, w)
    ensures var area := ContextAt(a, m.mem, m.cpu.gprs[EBP])[Slot(a, Gpr(ESP))] - OutSize(a);
      forall addr {:trigger Load(m'.mem, addr)} :: !(area <= addr < area + OutSize(a)) ==> Load(m'.mem, addr) == Load(m.mem, addr)
  {
    var ctx := m.cpu.gprs[EBP];
    ghost var w := ContextAt(a, m.mem, ctx);
    OffsetIsSlot(a, Gpr(ESP));
    // movl ESP(%ebp), %ecx; subl $5 * PTR_SIZE, %ecx (one update of ecx)
    var area := Load(m.mem, ctx + Offset(a, Gpr(ESP))) - OutSize(a);
    var m0 := Machine(m.cpu.(gprs := m.cpu.gprs[ECX := area], eflags := clobber), m.mem);
    var m5 := CopyPopWords(a, m0, area, w);
    FiveStores(a, m.mem, area, ctx, w[Slot(a, Eflags)], w[Slot(a, Gpr(EAX))], w[Slot(a, Gpr(ECX))], w[Slot(a, Gpr(EBP))], w[Slot(a, Eip)]);
    // movl %ecx, %esp
    m' := m5.(cpu := m5.cpu.(gprs := m5.cpu.gprs[ESP := m5.cpu.gprs[ECX]]));
  }

  /** `popf; pop eax; pop ecx; pop ebp; ret`. */
  method PopRestoreArea(a: Arch, m: Machine) returns (m': Machine)
    requires CpuShape(a, m.cpu)
    ensures var sp := Sp(m);
      m'.mem == m.mem &&
      m'.cpu == Cpu(m.cpu.gprs[EAX := Load(m.mem, sp + Words(a, 1))][ECX := Load(m.mem, sp + Words(a, 2))]
                               [EBP := Load(m.mem, sp + Words(a, 3))][ESP := sp + OutSize(a)],
                    m.cpu.xmms, Load(m.mem, sp), Load(m.mem, sp + Words(a, 4)))
  {
    var gprs, mem := m.cpu.gprs, m.mem;
    var eflags := Load(mem, gprs[ESP]);
    gprs := gprs[ESP := gprs[ESP] + PtrSize(a)];
    gprs := gprs[EAX := Load(mem, gprs[ESP])];
    gprs := gprs[ESP := gprs[ESP] + PtrSize(a)];
    gprs := gprs[ECX := Load(mem, gprs[ESP])];
    gprs := gprs[ESP := gprs[ESP] + PtrSize(a)];
    gprs := gprs[EBP := Load(mem, gprs[ESP])];
    gprs := gprs[ESP := gprs[ESP] + PtrSize(a)];
    var eip := Load(mem, gprs[ESP]);
    gprs := gprs[ESP := gprs[ESP] + PtrSize(a)];
    m' := Machine(Cpu(gprs, m.cpu.xmms, eflags, eip), mem);
  }

  /**
   * The restore path: reload the registers, fill the restore area and pop
   * it. The resumed registers are exactly the context's words. The restore
   * area must not overlap the context, which EnsureSafeContext guarantees.
   */
  method Restore(a: Arch, m: Machine, clobber: Word) returns (m': Machine)
    requires CpuShape(a, m.cpu)
    requires m.cpu.gprs[EBP] + Reserve(a) <= ContextAt(a, m.mem, m.cpu.gprs[EBP])[Slot(a, Gpr(ESP))]
    ensures var w := ContextAt(a, m.mem, m.cpu.gprs[EBP]);
      m'.cpu == ResumedCpu(a, w) && ContextAt(a, m'.mem, m.cpu.gprs[EBP]) == w
    ensures var w := ContextAt(a, m.mem, m.cpu.gprs[EBP]);
      var area := w[Slot(a, Gpr(ESP))] - OutSize(a);
      RestoreAreaAt(a, m'.mem, area) == PopValues(a, w) &&
      (forall addr {:trigger Load(m'.mem, addr)} :: !(area <= addr < area + OutSize(a)) ==> Load(m'.mem, addr) == Load(m.mem, addr))
  {
    var ctx := m.cpu.gprs[EBP];
    var w := ContextAt(a, m.mem, ctx);
    var m1 := ReloadRegisters(a, m);
    assert m1.cpu.gprs[EBP] == ctx;
    var m2 := FillRestoreArea(a, m1, clobber);
    m' := PopRestoreArea(a, m2);
    var area := w[Slot(a, Gpr(ESP))] - OutSize(a);
    ResumedFrom(a, w, m1.cpu.gprs, m'.cpu);
  }

  /** The registers after the pops are the context's. */
  lemma ResumedFrom(a: Arch, w: seq<Word>, reloaded: seq<Word>, c: Cpu)
    requires |w| == SlotCount(a) && |reloaded| == GprCount(a)
    requires forall n :: 0 <= n < GprCount(a) && n != EAX && n != ECX && n != ESP && n != EBP ==>
      reloaded[n] == w[Slot(a, Gpr(n))]
    requires c.gprs == reloaded[EAX := w[Slot(a, Gpr(EAX))]][ECX := w[Slot(a, Gpr(ECX))]]
                               [EBP := w[Slot(a, Gpr(EBP))]][ESP := w[Slot(a, Gpr(ESP))]]
    requires c.xmms == w[FirstXmmSlot(a)..] && c.eflags == w[Slot(a, Eflags)] && c.eip == w[Slot(a, Eip)]
    ensures c == ResumedCpu(a, w)
  {
    assert c.gprs == ResumedCpu(a, w).gprs;
  }

  /** The context once the probe function has run on the captured one. */
  ghost function Probed(a: Arch, m: Machine, probe: Callback): (w: seq<Word>)
    requires CpuShape(a, m.cpu) && KeepsSize(a, probe)
    ensures |w| == SlotCount(a)
  {
    probe(Captured(a, m))
  }

  /** The context once the stack initializer, if the probe set one, has run too. */
  ghost function Initialized(a: Arch, w: seq<Word>, init: Callback): (w': seq<Word>)
    requires |w| == SlotCount(a) && KeepsSize(a, init)
    ensures |w'| == SlotCount(a)
    ensures KeepsStackPointer(a, init) ==> w'[Slot(a, Gpr(ESP))] == w[Slot(a, Gpr(ESP))]
  {
    if w[Slot(a, InitializeStackFunction)] == 0 then w else init(w)
  }

  /** The initializer call made for a context `w` at `ctx`: none when initializeStackFunction is null. */
  function InitializerCalls(a: Arch, w: seq<Word>, ctx: int): (calls: seq<Call>)
    requires |w| == SlotCount(a)
    ensures |calls| <= 1
  {
    var f := w[Slot(a, InitializeStackFunction)];
    if f == 0 then [] else [Call(f, ctx)]
  }

  /** The calls the trampoline makes: the probe function, then the initializer when it is set. */
  ghost function Calls(a: Arch, m: Machine, probe: Callback): seq<Call>
    requires CpuShape(a, m.cpu) && KeepsSize(a, probe)
  {
    var ctx := EntryContext(a, Sp(m));
    var w := Probed(a, m, probe);
    [Call(Captured(a, m)[Slot(a, ProbeFunction)], ctx)] + InitializerCalls(a, w, SafeContext(a, ctx, w[Slot(a, Gpr(ESP))]))
  }

  /**
   * The first half: capture, call the probe function and make the context
   * safe. Everything written lies below the entry stack pointer.
   */
  method CaptureAndProbe(a: Arch, m: Machine, probe: Callback, clobber: Word) returns (m': Machine, call: Call)
    requires CpuShape(a, m.cpu) && KeepsSize(a, probe)
    ensures var w := Probed(a, m, probe);
      var safe := SafeContext(a, EntryContext(a, Sp(m)), w[Slot(a, Gpr(ESP))]);
      CpuShape(a, m'.cpu) && m'.cpu.gprs[EBP] == safe && Sp(m') <= safe &&
      ContextAt(a, m'.mem, safe) == w &&
      call == Call(Captured(a, m)[Slot(a, ProbeFunction)], EntryContext(a, Sp(m)))
    ensures forall addr {:trigger Load(m'.mem, addr)} :: addr >= Sp(m) ==> Load(m'.mem, addr) == Load(m.mem, addr)
  {
    var ctx := EntryContext(a, Sp(m));
    EntryContextBounds(a, Sp(m));
    var m1 := Capture(a, m, clobber);
    var m2;
    m2, call := CallProbe(a, m1, probe, clobber);
    var w := ContextAt(a, m2.mem, ctx);
    SafeContextBelowRequestedSp(a, ctx, w[Slot(a, Gpr(ESP))]);
    m' := EnsureSafeContext(a, m2, clobber);
  }

  /**
   * The second half: call the initializer if it is set, then restore. Only
   * the context and the area below it, and the restore area, are written.
   */
  method InitializeAndResume(a: Arch, m: Machine, init: Callback, clobber: Word) returns (m': Machine, calls: seq<Call>)
    requires CpuShape(a, m.cpu) && KeepsStackPointer(a, init)
    requires Sp(m) <= m.cpu.gprs[EBP]
    requires m.cpu.gprs[EBP] + Reserve(a) <= ContextAt(a, m.mem, m.cpu.gprs[EBP])[Slot(a, Gpr(ESP))]
    ensures var ctx := m.cpu.gprs[EBP];
      var w := ContextAt(a, m.mem, ctx);
      var w' := Initialized(a, w, init);
      var area := w[Slot(a, Gpr(ESP))] - OutSize(a);
      calls == InitializerCalls(a, w, ctx) &&
      m'.cpu == ResumedCpu(a, w') && ContextAt(a, m'.mem, ctx) == w' &&
      RestoreAreaAt(a, m'.mem, area) == PopValues(a, w') &&
      (forall addr {:trigger Load(m'.mem, addr)} :: addr >= ctx + ProbeSize(a) && !(area <= addr < area + OutSize(a)) ==> Load(m'.mem, addr) == Load(m.mem, addr))
  {
    var m4;
    m4, calls := CallInitializer(a, m, init, clobber);
    m' := Restore(a, m4, clobber);
  }

  /**
   * The whole trampoline, for a machine entered through the emitted probe
   * sequence: the calls it makes are the probe function, then the
   * initializer if the probe set one; the registers it resumes with are
   * exactly the final context's words; the final context and the restore
   * area lie below the requested stack pointer; and at or above the entry
   * stack pointer only the restore area changes.
   */
  method Trampoline(a: Arch, m: Machine, probe: Callback, init: Callback, clobber: Word)
    returns (r: Machine, calls: seq<Call>)
    requires CpuShape(a, m.cpu) && KeepsSize(a, probe) && KeepsStackPointer(a, init)
    ensures calls == Calls(a, m, probe)
    ensures var w := Probed(a, m, probe);
      var final := Initialized(a, w, init);
      var safe := SafeContext(a, EntryContext(a, Sp(m)), w[Slot(a, Gpr(ESP))]);
      r.cpu == ResumedCpu(a, final) &&
      ContextAt(a, r.mem, safe) == final &&
      safe + Reserve(a) <= final[Slot(a, Gpr(ESP))]
    ensures var w := Probed(a, m, probe);
      var area := w[Slot(a, Gpr(ESP))] - OutSize(a);
      RestoreAreaAt(a, r.mem, area) == PopValues(a, Initialized(a, w, init))
    ensures var area := Probed(a, m, probe)[Slot(a, Gpr(ESP))] - OutSize(a);
      forall addr {:trigger Load(r.mem, addr)} :: addr >= Sp(m) && !(area <= addr < area + OutSize(a)) ==> Load(r.mem, addr) == Load(m.mem, addr)
  {
    var m1, probeCall := CaptureAndProbe(a, m, probe, clobber);
    var w := Probed(a, m, probe);
    var ctx := EntryContext(a, Sp(m));
    SafeContextBelowRequestedSp(a, ctx, w[Slot(a, Gpr(ESP))]);
    EntryContextBounds(a, Sp(m));
    assert m1.cpu.gprs[EBP] + ProbeSize(a) <= Sp(m);
    var initCalls;
    r, initCalls := InitializeAndResume(a, m1, init, clobber);
    calls := [probeCall] + initCalls;
  }
}

=== FILE: ptr_tag.dfy ===
/**
 * JSC's pointer-role tags, in the configuration without pointer profiling:
 * every tag exists as an enumerator, but tagging, untagging, retagging and
 * tag removal leave the pointer's bits unchanged, and every tag request
 * yields NoPtrTag.
 *
 * A pointer is its address bits (a `nat`); the `bitwise_cast<T>` overloads
 * only change the static type, so they are the same functions here.
 */
module PtrTag {

  /** The enumerators of `enum PtrTag`, in declaration order. */
  datatype PtrTag =
    | NoPtrTag
    | NearCallPtrTag
    | CFunctionPtrTag
    | BytecodePtrTag
    | BytecodeHelperPtrTag
    | CodeEntryPtrTag
    | CodeEntryWithArityCheckPtrTag
    | ExceptionHandlerPtrTag
    | InternalFunctionPtrTag
    | JITCodePtrTag
    | NativeCodePtrTag
    | SlowPathPtrTag

  /** The declaration order of the enumerators. */
  const AllTags: seq<PtrTag> :=
    [NoPtrTag, NearCallPtrTag, CFunctionPtrTag, BytecodePtrTag, BytecodeHelperPtrTag, CodeEntryPtrTag,
     CodeEntryWithArityCheckPtrTag, ExceptionHandlerPtrTag, InternalFunctionPtrTag, JITCodePtrTag,
     NativeCodePtrTag, SlowPathPtrTag]

  /** The underlying `uintptr_t` value: NoPtrTag is 0, each later enumerator one more than the previous. */
  function TagValue(t: PtrTag): (v: nat)
    ensures v < |AllTags| && AllTags[v] == t
  {
    match t
    case NoPtrTag => 0
    case NearCallPtrTag => 1
    case CFunctionPtrTag => 2
    case BytecodePtrTag => 3
    case BytecodeHelperPtrTag => 4
    case CodeEntryPtrTag => 5
    case CodeEntryWithArityCheckPtrTag => 6
    case ExceptionHandlerPtrTag => 7
    case InternalFunctionPtrTag => 8
    case JITCodePtrTag => 9
    case NativeCodePtrTag => 10
    case SlowPathPtrTag => 11
  }

  /** The values are 0..11 in declaration order, so distinct tags have distinct values. */
  lemma TagValuesConsecutive()
    ensures |AllTags| == 12
    ensures forall i :: 0 <= i < |AllTags| ==> TagValue(AllTags[i]) == i
    ensures forall s, t :: TagValue(s) == TagValue(t) ==> s == t
  {
  }

  /** uniquePtrTagID(): always 0 when profiling is off. */
  function UniquePtrTagId(): (id: nat)
    ensures id == TagValue(NoPtrTag)
  {
    0
  }

  /**
   * ptrTag(arguments...): the tag requested for any arguments. The
   * variadic arguments are modelled as a sequence of opaque values.
   */
  function PtrTagFor<A>(arguments: seq<A>): (t: PtrTag)
    ensures TagValue(t) == 0
  {
    NoPtrTag
  }

  function TagCodePtr(ptr: nat, tag: PtrTag): (r: nat)
    ensures r == ptr
  {
    ptr
  }

  function UntagCodePtr(ptr: nat, tag: PtrTag): (r: nat)
    ensures r == ptr
  {
    ptr
  }

  function RetagCodePtr(ptr: nat, oldTag: PtrTag, newTag: PtrTag): (r: nat)
    ensures r == ptr
  {
    ptr
  }

  function RemoveCodePtrTag(ptr: nat): (r: nat)
    ensures r == ptr
  {
    ptr
  }

  /** Untagging with the tag a pointer was tagged with gives the pointer back, and so does the reverse order. */
  lemma TagRoundTrip(ptr: nat, tag: PtrTag)
    ensures UntagCodePtr(TagCodePtr(ptr, tag), tag) == ptr
    ensures TagCodePtr(UntagCodePtr(ptr, tag), tag) == ptr
  {
  }

  /** Retagging is untagging with the old tag followed by tagging with the new one. */
  lemma RetagIsUntagThenTag(ptr: nat, oldTag: PtrTag, newTag: PtrTag)
    ensures RetagCodePtr(ptr, oldTag, newTag) == TagCodePtr(UntagCodePtr(ptr, oldTag), newTag)
    ensures RetagCodePtr(RetagCodePtr(ptr, oldTag, newTag), newTag, oldTag) == ptr
  {
  }

  /** Removing the tag is idempotent and undoes any tagging. */
  lemma RemoveTagIdempotent(ptr: nat, tag: PtrTag)
    ensures RemoveCodePtrTag(RemoveCodePtrTag(ptr)) == RemoveCodePtrTag(ptr)
    ensures RemoveCodePtrTag(TagCodePtr(ptr, tag)) == ptr
  {
  }
}

=== FILE: service_worker_client_fetch.dfy ===
/**
 * WebKit's ServiceWorkerClientFetch: the web process side of a fetch that a
 * service worker handles. It relays the worker's response to the resource
 * loader, tracks a redirect through a four-state status, and answers its
 * creator through a one-shot callback.
 *
 * Calls into the resource loader, the client connection and the service
 * worker provider are recorded as events, in order; the callback's
 * invocations are recorded the same way.
 */
module ServiceWorkerClientFetch {

  datatype RedirectionStatus = None | Receiving | Received | Following

  /** ServiceWorkerClientFetch::Result, the value the callback receives. */
  datatype Result = Succeeded | Cancelled | Unhandled

  /** ResourceResponse::Tainting. */
  datatype Tainting = BasicTainting | CorsTainting | OpaqueTainting | OpaqueredirectTainting

  /** ResourceResponse::Type. */
  datatype ResponseType = BasicType | CorsType | DefaultType | ErrorType | OpaqueType | OpaqueredirectType

  /** ResourceResponse::Source: only whether it is the service worker matters here. */
  datatype ResponseSource = ServiceWorkerSource | OtherSource

  /** The parts of a ResourceResponse the fetch reads or rewrites. */
  datatype Response = Response(isRedirection: bool, tainting: Tainting, kind: ResponseType,
                               mimeType: string, source: ResponseSource)

  /** WebCore's defaultMIMEType(). */
  const DefaultMimeType: string := "application/octet-stream"

  datatype Event =
    | StartFetch(loaderIdentifier: nat)              // connection->startFetch(loader, loader->identifier())
    | LoaderWillSendRequest(redirectResponse: Response) // loader->willSendRequest(redirected request, response, completion)
    | LoaderDidFail                                   // loader->didFail(General)
    | LoaderDidReceiveResponse(response: Response)
    | LoaderDidReceiveData(size: nat, encodedDataLength: int)
    | LoaderDidFinishLoading
    | FetchFinished(identifier: nat)                  // serviceWorkerProvider.fetchFinished(identifier)
    | CallbackInvoked(result: Result)

  /** How many times the callback has been invoked in a run of events. */
  function CallbackCount(events: seq<Event>): (n: nat)
    ensures n == 0 <==> forall i :: 0 <= i < |events| ==> !events[i].CallbackInvoked?
  {
    if events == [] then 0
    else (if events[0].CallbackInvoked? then 1 else 0) + CallbackCount(events[1..])
  }

  lemma {:induction false} CallbackCountAppend(xs: seq<Event>, ys: seq<Event>)
    ensures CallbackCount(xs + ys) == CallbackCount(xs) + CallbackCount(ys)
    decreases |xs|
  {
    if xs == [] {
      assert xs + ys == ys;
    } else {
      assert (xs + ys)[1..] == xs[1..] + ys;
      CallbackCountAppend(xs[1..], ys);
    }
  }

  /** The events of `if (auto callback = WTFMove(m_callback)) callback(result)`. */
  function TakeCallback(present: bool, result: Result): (e: seq<Event>)
    ensures CallbackCount(e) == (if present then 1 else 0)
    ensures present ==> e == [CallbackInvoked(result)]
    ensures !present ==> e == []
  {
    if present then [CallbackInvoked(result)] else []
  }

  /** A redirect the fetch follows itself: a redirection whose tainting is not opaque-redirect. */
  predicate FollowsRedirect(r: Response): (b: bool)
    ensures b ==> r.isRedirection
    ensures r.tainting == OpaqueredirectTainting ==> !b
  {
    r.isRedirection && r.tainting != OpaqueredirectTainting
  }

  class ClientFetch {
    const identifier: nat
    const loaderIdentifier: nat
    /** Whether the loader's original request came from the main resource requester. */
    const mainResource: bool
    var status: RedirectionStatus
    /** Whether m_callback still holds the callback. */
    var hasCallback: bool
    /** Whether a callback was handed in at creation. */
    ghost const createdWithCallback: bool
    var events: seq<Event>

    /**
     * The callback is invoked only after it has been moved out, and so at
     * most once: the invocations so far plus the callback still held make
     * up exactly the callback the fetch was created with.
     */
    ghost predicate Valid()
      reads this
    {
      CallbackCount(events) + (if hasCallback then 1 else 0) == (if createdWithCallback then 1 else 0)
    }

    /** ServiceWorkerClientFetch::create: construct, then start(). */
    constructor Create(identifier: nat, loaderIdentifier: nat, mainResource: bool, hasCallback: bool)
      ensures Valid()
      ensures this.identifier == identifier && this.loaderIdentifier == loaderIdentifier
      ensures this.mainResource == mainResource && this.hasCallback == hasCallback
      ensures createdWithCallback == hasCallback
      ensures status == None && events == [StartFetch(loaderIdentifier)]
    {
      this.identifier := identifier;
      this.loaderIdentifier := loaderIdentifier;
      this.mainResource := mainResource;
      this.hasCallback := hasCallback;
      createdWithCallback := hasCallback;
      status := None;
      events := [StartFetch(loaderIdentifier)];
    }

    /** Appends events that do not invoke the callback. */
    method Record(e: seq<Event>)
      requires Valid() && CallbackCount(e) == 0
      modifies this
      ensures Valid()
      ensures events == old(events) + e
      ensures status == old(status) && hasCallback == old(hasCallback)
    {
      CallbackCountAppend(events, e);
      events := events + e;
    }

    /** Moves the callback out and invokes it, if it is still held. */
    method InvokeCallback(result: Result)
      requires Valid()
      modifies this
      ensures Valid()
      ensures !hasCallback
      ensures events == old(events) + TakeCallback(old(hasCallback), result)
      ensures status == old(status)
    {
      CallbackCountAppend(events, TakeCallback(hasCallback, result));
      events := events + TakeCallback(hasCallback, result);
      hasCallback := false;
    }

    /** start(): asks the connection to start the fetch for the loader. */
    method Start()
      requires Valid()
      modifies this
      ensures Valid()
      ensures events == old(events) + [StartFetch(loaderIdentifier)]
      ensures status == old(status) && hasCallback == old(hasCallback)
    {
      Record([StartFetch(loaderIdentifier)]);
    }

    /**
     * didReceiveResponse. A redirect the fetch follows makes the status
     * Receiving and hands the redirect to the loader (whose completion is
     * RedirectCompleted); it leaves the callback alone. An error response
     * fails the loader; any other is passed on as a service worker response
     * (a main resource with the default MIME type becoming text/html). Both
     * of the latter then invoke the callback with Succeeded.
     */
    method DidReceiveResponse(response: Response)
      requires Valid()
      modifies this
      ensures Valid()
      ensures FollowsRedirect(response) ==>
        status == Receiving && hasCallback == old(hasCallback) &&
        events == old(events) + [LoaderWillSendRequest(response)]
      ensures !FollowsRedirect(response) ==> status == old(status) && !hasCallback
      ensures !FollowsRedirect(response) && response.kind == ErrorType ==>
        events == old(events) + [LoaderDidFail] + TakeCallback(old(hasCallback), Succeeded)
      ensures !FollowsRedirect(response) && response.kind != ErrorType ==>
        events == old(events) + [LoaderDidReceiveResponse(ServiceWorkerResponse(response, mainResource))] +
                  TakeCallback(old(hasCallback), Succeeded)
    {
      if FollowsRedirect(response) {
        status := Receiving;
        Record([LoaderWillSendRequest(response)]);
        return;
      }
      if response.kind == ErrorType {
        Record([LoaderDidFail]);
        InvokeCallback(Succeeded);
        return;
      }
      var r := response;
      if mainResource && r.mimeType == DefaultMimeType {
        r := r.(mimeType := "text/html");
      }
      r := r.(source := ServiceWorkerSource);
      Record([LoaderDidReceiveResponse(r)]);
      InvokeCallback(Succeeded);
    }

    /**
     * The completion handed to willSendRequest, called by the loader with
     * the request it will send (null when it will not). It does nothing if
     * the request is null or the callback is gone; if the redirect response
     * has already finished it restarts the fetch, otherwise it marks the
     * redirect as being followed.
     */
    method RedirectCompleted(requestIsNull: bool)
      requires Valid()
      modifies this
      ensures Valid()
      ensures hasCallback == old(hasCallback)
      ensures requestIsNull || !old(hasCallback) ==> status == old(status) && events == old(events)
      ensures !requestIsNull && old(hasCallback) && old(status) == Received ==>
        status == Received && events == old(events) + [StartFetch(loaderIdentifier)]
      ensures !requestIsNull && old(hasCallback) && old(status) != Received ==>
        status == Following && events == old(events)
    {
      if requestIsNull || !hasCallback {
        return;
      }
      if status == Received {
        Start();
        return;
      }
      status := Following;
    }

    /** didReceiveData: passed straight to the loader. */
    method DidReceiveData(size: nat, encodedDataLength: int)
      requires Valid()
      modifies this
      ensures Valid()
      ensures events == old(events) + [LoaderDidReceiveData(size, encodedDataLength)]
      ensures status == old(status) && hasCallback == old(hasCallback)
    {
      Record([LoaderDidReceiveData(size, encodedDataLength)]);
    }

    /**
     * didFinish. The end of a redirect response's body makes Receiving
     * Received; the end of the body while the redirect is being followed
     * restarts the fetch. Otherwise (None, and Received, which the source
     * asserts cannot happen and resets to None) the loader finishes and the
     * provider is told the fetch is over.
     */
    method DidFinish()
      requires Valid()
      modifies this
      ensures Valid()
      ensures hasCallback == old(hasCallback)
      ensures old(status) == Receiving ==> status == Received && events == old(events)
      ensures old(status) == Following ==> status == None && events == old(events) + [StartFetch(loaderIdentifier)]
      ensures old(status) == None || old(status) == Received ==>
        status == None && events == old(events) + [LoaderDidFinishLoading, FetchFinished(identifier)]
    {
      if status == Receiving {
        status := Received;
        return;
      } else if status == Following {
        status := None;
        Start();
        return;
      } else if status == Received {
        status := None;
      }
      Record([LoaderDidFinishLoading, FetchFinished(identifier)]);
    }

    /** didFail: the loader fails, any held callback gets Succeeded, and the fetch is over. */
    method DidFail()
      requires Valid()
      modifies this
      ensures Valid()
      ensures !hasCallback && status == old(status)
      ensures events == old(events) + [LoaderDidFail] + TakeCallback(old(hasCallback), Succeeded) + [FetchFinished(identifier)]
    {
      Record([LoaderDidFail]);
      InvokeCallback(Succeeded);
      Record([FetchFinished(identifier)]);
    }

    /** didNotHandle: any held callback gets Unhandled, and the fetch is over. */
    method DidNotHandle()
      requires Valid()
      modifies this
      ensures Valid()
      ensures !hasCallback && status == old(status)
      ensures events == old(events) + TakeCallback(old(hasCallback), Unhandled) + [FetchFinished(identifier)]
    {
      InvokeCallback(Unhandled);
      Record([FetchFinished(identifier)]);
    }

    /** cancel: any held callback gets Cancelled; the provider is not told. */
    method Cancel()
      requires Valid()
      modifies this
      ensures Valid()
      ensures !hasCallback && status == old(status)
      ensures events == old(events) + TakeCallback(old(hasCallback), Cancelled)
    {
      InvokeCallback(Cancelled);
    }
  }

  /** The response the loader receives for a non-redirect, non-error response. */
  function ServiceWorkerResponse(response: Response, mainResource: bool): (r: Response)
    ensures r.source == ServiceWorkerSource
    ensures r.mimeType == (if mainResource && response.mimeType == DefaultMimeType then "text/html" else response.mimeType)
    ensures r.isRedirection == response.isRedirection && r.tainting == response.tainting && r.kind == response.kind
  {
    response.(mimeType := if mainResource && response.mimeType == DefaultMimeType then "text/html" else response.mimeType,
              source := ServiceWorkerSource)
  }

  /** The calls a fetch can receive after it is created. */
  datatype Call =
    | ReceiveResponse(response: Response)
    | CompleteRedirect(requestIsNull: bool)
    | ReceiveData(size: nat, encodedDataLength: int)
    | Finish
    | Fail
    | NotHandle
    | CancelFetch

  /**
   * Over any sequence of calls, in any order, the callback is invoked at
   * most once, and it is invoked at all only if it was held at creation.
   */
  method CallbackAtMostOnce(identifier: nat, loaderIdentifier: nat, mainResource: bool, hasCallback: bool, calls: seq<Call>)
    returns (f: ClientFetch)
    ensures CallbackCount(f.events) <= (if hasCallback then 1 else 0)
    ensures |f.events| >= 1 && f.events[0] == StartFetch(loaderIdentifier)
  {
    f := new ClientFetch.Create(identifier, loaderIdentifier, mainResource, hasCallback);
    var i := 0;
    while i < |calls|
      invariant 0 <= i <= |calls|
      invariant f.Valid() && |f.events| >= 1 && f.events[0] == StartFetch(loaderIdentifier)
      invariant f.createdWithCallback == hasCallback
      modifies f
    {
      match calls[i] {
      case ReceiveResponse(r) => f.DidReceiveResponse(r);
      case CompleteRedirect(n) => f.RedirectCompleted(n);
      case ReceiveData(s, l) => f.DidReceiveData(s, l);
      case Finish => f.DidFinish();
      case Fail => f.DidFail();
      case NotHandle => f.DidNotHandle();
      case CancelFetch => f.Cancel();
      }
      i := i + 1;
    }
  }

  /**
   * A followed redirect restarts the fetch exactly once whichever comes
   * first, the loader's completion or the end of the redirect response:
   * both orders produce the same calls. When the response ends first the
   * status stays Received after the restart, so the restarted load's own
   * didFinish takes the Received branch.
   */
  method RedirectEitherOrder(identifier: nat, loaderIdentifier: nat, mainResource: bool, redirect: Response)
    returns (completionFirst: ClientFetch, finishFirst: ClientFetch)
    requires FollowsRedirect(redirect)
    ensures completionFirst.events == finishFirst.events ==
      [StartFetch(loaderIdentifier), LoaderWillSendRequest(redirect), StartFetch(loaderIdentifier)]
    ensures completionFirst.status == None && finishFirst.status == Received
    ensures completionFirst.hasCallback && finishFirst.hasCallback
  {
    completionFirst := new ClientFetch.Create(identifier, loaderIdentifier, mainResource, true);
    completionFirst.DidReceiveResponse(redirect);
    completionFirst.RedirectCompleted(false);
    completionFirst.DidFinish();

    finishFirst := new ClientFetch.Create(identifier, loaderIdentifier, mainResource, true);
    finishFirst.DidReceiveResponse(redirect);
    finishFirst.DidFinish();
    finishFirst.RedirectCompleted(false);
  }
}

=== FILE: service_worker_job_data.dfy ===
/**
 * WebCore's ServiceWorkerJobData and its IPC coding: `encode` writes the
 * fields to the encoder in a fixed order; `decode` reads them back in the
 * same order into an existing job, stopping at the first field that does
 * not decode.
 *
 * The IPC stream is modelled one token per encoded value. URLs, security
 * origins and registration options are opaque values whose own coding
 * round-trips; a token of the wrong kind (or a missing one) is a value that
 * fails to decode.
 */
module ServiceWorkerJobData {

  datatype Option<T> = None | Some(value: T)

  type Url = string

  /** SecurityOriginData: protocol, host and optional port. */
  datatype SecurityOriginData = SecurityOriginData(protocol: string, host: string, port: Option<nat>)

  /** RegistrationOptions, kept opaque. */
  datatype RegistrationOptions = RegistrationOptions(contents: string)

  /** The value of a freshly allocated RegistrationOptions. */
  const DefaultRegistrationOptions := RegistrationOptions("")

  /**
   * The values a ServiceWorkerJobType variable can hold: Register (0), the
   * only enumerator the coder's switches name, or `Unnamed(raw)`, a number
   * no enumerator has, which decodeEnum's unchecked cast stores all the same.
   */
  datatype JobKind = Register | Unnamed(raw: nat)

  /** ServiceWorkerJobType: an unnamed value is never Register's 0. */
  type JobType = k: JobKind | k.Unnamed? ==> k.raw != 0 witness Register

  /** The number encodeEnum writes for a job type. */
  function JobTypeValue(t: JobType): nat
  {
    match t
    case Register => 0
    case Unnamed(raw) => raw
  }

  /** decodeEnum: the job type stored for a decoded number, which every number names. */
  function JobTypeOf(raw: nat): (t: JobType)
    ensures JobTypeValue(t) == raw
    ensures forall u: JobType {:trigger JobTypeValue(u)} :: JobTypeValue(u) == raw ==> u == t
    ensures t == Register <==> raw == 0
  {
    if raw == 0 then Register else Unnamed(raw)
  }

  /** One encoded value in the IPC stream. */
  datatype Token =
    | U64(n: nat)
    | UrlToken(url: Url)
    | OriginToken(origin: SecurityOriginData)
    | OptionsToken(options: RegistrationOptions)

  /** The fields of a job, as a value. */
  datatype Job = Job(jobIdentifier: nat, connectionIdentifier: nat, scriptURL: Url, clientCreationURL: Url,
                     topOrigin: SecurityOriginData, scopeURL: Url, jobType: JobType,
                     registrationOptions: Option<RegistrationOptions>)

  /** A job `encode` accepts without crashing: a Register job must carry registration options. */
  predicate Encodable(j: Job)
  {
    j.jobType == Register ==> j.registrationOptions.Some?
  }

  /** The token that encodes field i (0..6) of a job, in encoding order. */
  function FieldToken(j: Job, i: nat): Token
    requires i < 7
  {
    if i == 0 then U64(j.jobIdentifier)
    else if i == 1 then U64(j.connectionIdentifier)
    else if i == 2 then UrlToken(j.scriptURL)
    else if i == 3 then UrlToken(j.clientCreationURL)
    else if i == 4 then OriginToken(j.topOrigin)
    else if i == 5 then UrlToken(j.scopeURL)
    else U64(JobTypeValue(j.jobType))
  }

  /**
   * What `encode` writes: the seven fields in order (the type as its number),
   * then the registration options of a Register job; the switch writes
   * nothing more for an unnamed type.
   */
  function Encoding(j: Job): (t: seq<Token>)
    requires Encodable(j)
    ensures |t| == if j.jobType == Register then 8 else 7
    ensures forall i :: 0 <= i < 7 ==> t[i] == FieldToken(j, i)
    ensures j.jobType == Register ==> t[7] == OptionsToken(j.registrationOptions.value)
  {
    [U64(j.jobIdentifier), U64(j.connectionIdentifier), UrlToken(j.scriptURL), UrlToken(j.clientCreationURL),
     OriginToken(j.topOrigin), UrlToken(j.scopeURL), U64(JobTypeValue(j.jobType))] +
    match j.jobType
    case Register => [OptionsToken(j.registrationOptions.value)]
    case Unnamed(_) => []
  }

  /** Whether `tok` decodes as field k (0..7) of a job; the type (6) is any 64-bit number. */
  predicate FieldDecodes(k: nat, tok: Token)
  {
    if k <= 1 || k == 6 then tok.U64?
    else if k == 2 || k == 3 || k == 5 then tok.UrlToken?
    else if k == 4 then tok.OriginToken?
    else tok.OptionsToken?
  }

  /** Whether token i of `t` decodes as the i-th field. */
  predicate GoodToken(t: seq<Token>, i: nat)
    requires i < |t|
  {
    FieldDecodes(i, t[i])
  }

  /** The number of leading tokens (up to 8) that decode as their fields: where a Register job's decoding stops. */
  function GoodPrefix(t: seq<Token>): (k: nat)
    ensures k <= 8 && k <= |t|
    ensures forall i :: 0 <= i < k ==> GoodToken(t, i)
    ensures k < 8 && k < |t| ==> !GoodToken(t, k)
  {
    if |t| < 1 || !GoodToken(t, 0) then 0
    else if |t| < 2 || !GoodToken(t, 1) then 1
    else if |t| < 3 || !GoodToken(t, 2) then 2
    else if |t| < 4 || !GoodToken(t, 3) then 3
    else if |t| < 5 || !GoodToken(t, 4) then 4
    else if |t| < 6 || !GoodToken(t, 5) then 5
    else if |t| < 7 || !GoodToken(t, 6) then 6
    else if |t| < 8 || !GoodToken(t, 7) then 7
    else 8
  }

  /** Field k (0..6) of `d` overwritten with the value `tok` decodes to. */
  function SetField(d: Job, k: nat, tok: Token): (d': Job)
    requires k < 7 && FieldDecodes(k, tok)
    ensures FieldToken(d', k) == tok
    ensures forall i :: 0 <= i < 7 && i != k ==> FieldToken(d', i) == FieldToken(d, i)
    ensures d'.registrationOptions == d.registrationOptions
  {
    if k == 0 then d.(jobIdentifier := tok.n)
    else if k == 1 then d.(connectionIdentifier := tok.n)
    else if k == 2 then d.(scriptURL := tok.url)
    else if k == 3 then d.(clientCreationURL := tok.url)
    else if k == 4 then d.(topOrigin := tok.origin)
    else if k == 5 then d.(scopeURL := tok.url)
    else d.(jobType := JobTypeOf(tok.n))
  }

  /** Whether the seven fields decode and the type read is Register, so that decode goes on to the options. */
  predicate RegisterRead(t: seq<Token>)
  {
    7 <= GoodPrefix(t) && t[6] == U64(JobTypeValue(Register))
  }

  /**
   * Whether decode returns true on `t`: the seven fields decode and, when
   * the type is Register, the options after them decode too.
   */
  predicate Decodes(t: seq<Token>)
  {
    GoodPrefix(t) == 8 || (GoodPrefix(t) == 7 && !RegisterRead(t))
  }

  /** The outcome of decode: whether it returned true, and the job's fields afterwards. */
  datatype Decoded = Decoded(ok: bool, job: Job)

  /**
   * decode from field k on, on the tokens `t` into a job holding `d`: each
   * field is overwritten as soon as it decodes, and decoding stops at the
   * first that does not; once the type is known, a Register job gets fresh
   * options before they are read, and any other type ends decoding with
   * success.
   */
  function DecodeFrom(t: seq<Token>, k: nat, d: Job): Decoded
    requires k <= 7
    decreases 7 - k
  {
    if k == 7 then
      match d.jobType
      case Register =>
        var d := d.(registrationOptions := Some(DefaultRegistrationOptions));
        if |t| <= 7 || !FieldDecodes(7, t[7]) then Decoded(false, d)
        else Decoded(true, d.(registrationOptions := Some(t[7].options)))
      case Unnamed(_) => Decoded(true, d)
    else if |t| <= k || !FieldDecodes(k, t[k]) then Decoded(false, d)
    else DecodeFrom(t, k + 1, SetField(d, k, t[k]))
  }

  /** decode(decoder, jobData) on the tokens `t`, into a job holding `d`. */
  function DecodeJob(t: seq<Token>, d: Job): Decoded
  {
    DecodeFrom(t, 0, d)
  }

  /** Two jobs with the same field tokens and options are the same job. */
  lemma FieldTokensDetermine(a: Job, b: Job)
    requires forall i :: 0 <= i < 7 ==> FieldToken(a, i) == FieldToken(b, i)
    requires a.registrationOptions == b.registrationOptions
    ensures a == b
  {
    assert FieldToken(a, 0) == FieldToken(b, 0) && FieldToken(a, 1) == FieldToken(b, 1);
    assert FieldToken(a, 2) == FieldToken(b, 2) && FieldToken(a, 3) == FieldToken(b, 3);
    assert FieldToken(a, 4) == FieldToken(b, 4) && FieldToken(a, 5) == FieldToken(b, 5);
    assert FieldToken(a, 6) == FieldToken(b, 6);
    var t := JobTypeOf(JobTypeValue(a.jobType));
    assert a.jobType == t && b.jobType == t;
  }

  /**
   * What decoding from field k on does, when the fields before k have
   * decoded (and, from the options on, the type read is the target's): it
   * succeeds exactly when `Decodes(t)`; the fields from k up to the first
   * bad one take the tokens' values; the failing field and every later one
   * keep their old values; a Register job's options are the decoded ones on
   * success and fresh ones when only they failed, and the options are
   * untouched otherwise.
   */
  lemma {:induction false} DecodeFromResult(t: seq<Token>, k: nat, d: Job)
    requires k <= 7 && k <= GoodPrefix(t)
    requires k == 7 ==> t[6].U64? && d.jobType == JobTypeOf(t[6].n)
    ensures var r := DecodeFrom(t, k, d);
      (r.ok <==> Decodes(t)) &&
      (forall i :: k <= i < 7 ==> FieldToken(r.job, i) == if i < GoodPrefix(t) then t[i] else FieldToken(d, i)) &&
      (forall i :: 0 <= i < k ==> FieldToken(r.job, i) == FieldToken(d, i)) &&
      r.job.registrationOptions ==
        (if !RegisterRead(t) then d.registrationOptions
         else if GoodPrefix(t) == 8 then Some(t[7].options)
         else Some(DefaultRegistrationOptions))
    decreases 7 - k
  {
    var p := GoodPrefix(t);
    if k == 7 {
      if p == 8 {
        assert GoodToken(t, 7);
      }
    } else if p == k {
      if k < |t| {
        assert !GoodToken(t, k);
      }
    } else {
      assert GoodToken(t, k);
      if k == 6 {
        assert GoodToken(t, 6);
      }
      DecodeFromResult(t, k + 1, SetField(d, k, t[k]));
    }
  }

  /**
   * decode succeeds exactly when the first seven tokens are the seven fields
   * and, if the type is Register, the eighth is the options.
   */
  lemma DecodeSucceedsIff(t: seq<Token>, d: Job)
    ensures DecodeJob(t, d).ok <==>
      GoodPrefix(t) >= 7 && (t[6] == U64(JobTypeValue(Register)) ==> GoodPrefix(t) == 8)
  {
    DecodeFromResult(t, 0, d);
  }

  /**
   * decode stops at the first field that fails: the fields before it hold
   * the decoded tokens, and the failing field and every later one keep the
   * target's old values (except that a Register job's options are freshly
   * allocated once its type has decoded).
   */
  lemma DecodeStopsAtFirstBadField(t: seq<Token>, d: Job)
    requires !Decodes(t)
    ensures var r := DecodeJob(t, d);
      !r.ok &&
      (forall i :: 0 <= i < GoodPrefix(t) && i < 7 ==> FieldToken(r.job, i) == t[i]) &&
      (forall i :: GoodPrefix(t) <= i < 7 ==> FieldToken(r.job, i) == FieldToken(d, i)) &&
      r.job.registrationOptions == (if GoodPrefix(t) == 7 then Some(DefaultRegistrationOptions) else d.registrationOptions)
  {
    DecodeFromResult(t, 0, d);
  }

  /**
   * Round trip: decoding what `encode` wrote succeeds, whatever the target
   * held and whatever follows, and yields the encoded job; for an unnamed
   * type no options were sent, so the target keeps its own.
   */
  lemma EncodeDecode(j: Job, d: Job, rest: seq<Token>)
    requires Encodable(j)
    ensures DecodeJob(Encoding(j) + rest, d) ==
      Decoded(true, if j.jobType == Register then j else j.(registrationOptions := d.registrationOptions))
  {
    var t := Encoding(j) + rest;
    var e := Encoding(j);
    assert forall i :: 0 <= i < |e| ==> t[i] == e[i];
    assert forall i :: 0 <= i < 7 ==> FieldDecodes(i, FieldToken(j, i));
    assert GoodPrefix(t) >= 7;
    if j.jobType == Register {
      assert GoodToken(t, 7);
      assert GoodPrefix(t) == 8;
    }
    DecodeFromResult(t, 0, d);
    var expected := if j.jobType == Register then j else j.(registrationOptions := d.registrationOptions);
    assert forall i :: 0 <= i < 7 ==> FieldToken(expected, i) == FieldToken(j, i);
    FieldTokensDetermine(DecodeJob(t, d).job, expected);
  }

  /** The IPC encoder: values are appended to its stream. */
  class Encoder {
    var stream: seq<Token>

    constructor()
      ensures stream == []
    {
      stream := [];
    }

    method Append(t: Token)
      modifies this
      ensures stream == old(stream) + [t]
    {
      stream := stream + [t];
    }
  }

  /** The IPC decoder: reads its stream front to back. */
  class Decoder {
    const stream: seq<Token>
    var pos: nat

    constructor(stream: seq<Token>)
      ensures this.stream == stream && pos == 0
    {
      this.stream := stream;
      pos := 0;
    }

    /** The tokens not yet read. */
    function Remaining(): seq<Token>
      reads this
    {
      if pos <= |stream| then stream[pos..] else []
    }

    /** Reads the next token; fails (without reading) at the end of the stream. */
    method Next() returns (t: Option<Token>)
      modifies this
      ensures old(Remaining()) == [] ==> t == None && pos == old(pos)
      ensures old(Remaining()) != [] ==> t == Some(old(Remaining())[0]) && Remaining() == old(Remaining())[1..]
    {
      if pos < |stream| {
        t := Some(stream[pos]);
        pos := pos + 1;
      } else {
        t := None;
      }
    }
  }

  /** ServiceWorkerJobData: the fields `decode` overwrites one at a time. */
  class JobData {
    var jobIdentifier: nat
    var connectionIdentifier: nat
    var scriptURL: Url
    var clientCreationURL: Url
    var topOrigin: SecurityOriginData
    var scopeURL: Url
    var jobType: JobType
    var registrationOptions: Option<RegistrationOptions>

    function Value(): Job
      reads this
    {
      Job(jobIdentifier, connectionIdentifier, scriptURL, clientCreationURL, topOrigin, scopeURL, jobType,
          registrationOptions)
    }

    /** The default constructor: both identifiers 0, empty URLs and origin, no registration options. */
    constructor()
      ensures jobIdentifier == 0 && connectionIdentifier == 0
      ensures scriptURL == "" && clientCreationURL == "" && scopeURL == ""
      ensures topOrigin == SecurityOriginData("", "", None) && registrationOptions == None
    {
      jobIdentifier := 0;
      connectionIdentifier := 0;
      scriptURL := "";
      clientCreationURL := "";
      topOrigin := SecurityOriginData("", "", None);
      scopeURL := "";
      jobType := Register;
      registrationOptions := None;
    }

    /** encode: the fields in order, then (for Register, where they must be present) the options. */
    method Encode(encoder: Encoder)
      requires Encodable(Value())
      modifies encoder
      ensures encoder.stream == old(encoder.stream) + Encoding(Value())
    {
      encoder.Append(U64(jobIdentifier));
      encoder.Append(U64(connectionIdentifier));
      encoder.Append(UrlToken(scriptURL));
      encoder.Append(UrlToken(clientCreationURL));
      encoder.Append(OriginToken(topOrigin));
      encoder.Append(UrlToken(scopeURL));
      encoder.Append(U64(JobTypeValue(jobType)));
      match jobType {
        case Register =>
          encoder.Append(OptionsToken(registrationOptions.value));
        case Unnamed(_) =>
      }
    }
  }

  /**
   * One `decoder.decode(jobData.<field k>)` of decode (fields 0..6): reads
   * the next token and, if it decodes as the field, stores it there.
   */
  method DecodeField(decoder: Decoder, jobData: JobData, k: nat, ghost t: seq<Token>) returns (ok: bool)
    requires k < 7 && k <= |t| && decoder.Remaining() == t[k..]
    modifies decoder, jobData
    ensures ok == (k < |t| && FieldDecodes(k, t[k]))
    ensures ok ==> jobData.Value() == SetField(old(jobData.Value()), k, t[k]) && decoder.Remaining() == t[k + 1..]
    ensures !ok ==> jobData.Value() == old(jobData.Value())
    ensures DecodeFrom(t, k, old(jobData.Value())) ==
      if ok then DecodeFrom(t, k + 1, jobData.Value()) else Decoded(false, jobData.Value())
  {
    var x := decoder.Next();
    if x.None? || !FieldDecodes(k, x.value) {
      return false;
    }
    var tok := x.value;
    if k == 0 {
      jobData.jobIdentifier := tok.n;
    } else if k == 1 {
      jobData.connectionIdentifier := tok.n;
    } else if k == 2 {
      jobData.scriptURL := tok.url;
    } else if k == 3 {
      jobData.clientCreationURL := tok.url;
    } else if k == 4 {
      jobData.topOrigin := tok.origin;
    } else if k == 5 {
      jobData.scopeURL := tok.url;
    } else {
      jobData.jobType := JobTypeOf(tok.n);
    }
    return true;
  }

  /** The switch on the job type: a Register job gets fresh options, then reads them; any other type reads nothing. */
  method DecodeOptions(decoder: Decoder, jobData: JobData, ghost t: seq<Token>) returns (ok: bool)
    requires 7 <= |t| && decoder.Remaining() == t[7..]
    modifies decoder, jobData
    ensures Decoded(ok, jobData.Value()) == DecodeFrom(t, 7, old(jobData.Value()))
  {
    match jobData.jobType {
      case Register =>
        jobData.registrationOptions := Some(DefaultRegistrationOptions);
        var x := decoder.Next();
        if x.None? || !x.value.OptionsToken? {
          return false;
        }
        jobData.registrationOptions := Some(x.value.options);
      case Unnamed(_) =>
    }
    return true;
  }

  /**
   * decode(decoder, jobData): reads the fields in encoding order, writing
   * each into `jobData` as it decodes, and returns false at the first one
   * that does not.
   */
  method Decode(decoder: Decoder, jobData: JobData) returns (ok: bool)
    modifies decoder, jobData
    ensures Decoded(ok, jobData.Value()) == DecodeJob(old(decoder.Remaining()), old(jobData.Value()))
  {
    ghost var t := decoder.Remaining();
    ok := DecodeIdentifiersAndUrls(decoder, jobData, t);
    if !ok { return; }
    ok := DecodeField(decoder, jobData, 4, t);
    if !ok { return; }
    ok := DecodeField(decoder, jobData, 5, t);
    if !ok { return; }
    ok := DecodeField(decoder, jobData, 6, t);
    if !ok { return; }
    ok := DecodeOptions(decoder, jobData, t);
  }

  /** The first four reads of decode: both identifiers, the script URL and the client creation URL. */
  method DecodeIdentifiersAndUrls(decoder: Decoder, jobData: JobData, ghost t: seq<Token>) returns (ok: bool)
    requires decoder.Remaining() == t
    modifies decoder, jobData
    ensures ok ==> 4 <= |t| && decoder.Remaining() == t[4..]
    ensures DecodeFrom(t, 0, old(jobData.Value())) ==
      if ok then DecodeFrom(t, 4, jobData.Value()) else Decoded(false, jobData.Value())
  {
    assert t[0..] == t;
    ok := DecodeField(decoder, jobData, 0, t);
    if !ok { return; }
    ok := DecodeField(decoder, jobData, 1, t);
    if !ok { return; }
    ok := DecodeField(decoder, jobData, 2, t);
    if !ok { return; }
    ok := DecodeField(decoder, jobData, 3, t);
  }

  /**
   * The round trip through the coder objects: a job encoded into a fresh
   * encoder decodes, from a decoder over that stream, into any job, with
   * every field reproduced (the options only for Register, the one type
   * that sends them).
   */
  method RoundTrip(source: JobData, target: JobData) returns (ok: bool)
    requires Encodable(source.Value())
    modifies target
    ensures ok
    ensures target.Value() ==
      if old(source.jobType) == Register then old(source.Value())
      else old(source.Value()).(registrationOptions := old(target.registrationOptions))
  {
    var encoder := new Encoder();
    source.Encode(encoder);
    var decoder := new Decoder(encoder.stream);
    assert decoder.Remaining() == Encoding(source.Value()) + [];
    EncodeDecode(source.Value(), target.Value(), []);
    ok := Decode(decoder, target);
  }
}
